=== FILE: README.md ===
# RSVP for the inauguration of a savings cooperative: a Dafny model

The system has two browser front ends over one backend holding two
collections: members ("matriz") and RSVP responses ("inauguracion").

- The public wizard (`form.js`) lets a member find themselves by national
  ID number (cédula). They then answer "attend", "decline" or "send a
  representative", say how many companions come, and create or update one
  response row.
- The administrator dashboard (`main.js`) logs in and loads both
  collections. It shows six summary counters and a member/response table
  with an answer filter and a search box, and exports the table.
- A shared configuration (`config.js`) holds a nested settings tree, the
  dotted-path lookup `getConfig` with a default, and a second,
  configuration-driven ID validator.

This project models that logic as immutable datatypes and pure functions,
and proves properties of them:

- `Base`: optional values, digits, JavaScript truthiness of strings,
  lower-casing and substring search.
- `Records`: members, responses and the three backend answer literals.
- `Config`: the value tree, `split('.')`, the path lookup, the shipped
  settings and the configurable validator.
- `Form`: the ID helpers, the two live input normalisers, the wizard state
  and one transition per event handler.
- `Runs`: which events each step offers, the invariant every reachable
  state keeps, and walk-throughs of whole visits.
- `Dashboard`: badges, counters (a loop proved equal to a reference
  definition), the last-wins join, the filters, the export rows and the
  session rules.
- `Divergence`: how the wizard's ID check and the configuration's
  validator differ.

Backend requests are not modelled as I/O. Each wizard event carries the
answers the backend gives it: the member lookup, the probe for an earlier
response, and the result of the create or update. Each transition returns
the next state, the backend calls it made (in order) and the notice it
shows.

The wizard's handlers do not check which step is on screen. The model keeps
them unguarded too. The steps' buttons are modelled separately as
`Runs.Enabled`, and the run-level properties assume that only offered
events happen.

Two behaviours of the dashboard are easy to misread:

- A member with no response gets a total of 0 people (`main.js:525`).
- The no-response card shows `|socios| - |respuestas|`, which can be
  negative (`Dashboard.NoResponseCardCanBeNegative`).

## Model

| member | source | states |
|---|---|---|
| Base.OrElse | main.js:523 | `x \|\| fallback` on an optional string: null, undefined and "" give the fallback, any other string is kept |
| Base.FirstTruthy | main.js:526 | `a \|\| b \|\| null`: the first non-empty string of the two, else null; a result is never "" |
| Base.LowerChar | main.js:510 | `toLowerCase` on one character maps A–Z (and the Latin-1 capitals) 32 code points up and leaves every other character unchanged |
| Base.ToLower | main.js:510 | lower-casing keeps the length and maps every character by `LowerChar` |
| Records.Literal | config.js:31-35 | each answer has a non-empty backend literal |
| Records.KindOf | config.js:31-35 | a recognised literal is the literal of the answer returned |
| Records.KindOfLiteral | form.js:810-819 | reading back the literal of an answer gives that answer |
| Records.LiteralInjective | config.js:31-35 | two answers share a literal exactly when they are the same answer |
| Config.Split | config.js:76 | `split('.')` always gives at least one piece, and no piece contains the separator |
| Config.JoinSplit | config.js:76 | joining the pieces of a split with the separator gives back the path |
| Config.SplitJoin | config.js:76 | separator-free pieces, joined and split again, are the same pieces |
| Config.SplitFirstSegment | config.js:76 | a path `k.rest` splits into `k` followed by the pieces of `rest` |
| Config.Resolve | config.js:79-85 | the key walk of `getConfig`; its behaviour is stated by Config.ResolveAppend, Config.DefaultAtMissingSegment and Config.PresentValueWins |
| Config.ResolveAppend | config.js:79-85 | walking the keys `a + b` is walking `a` and then walking `b` from the value reached; a failure in `a` is final |
| Config.DefaultAtMissingSegment | config.js:80-84 | at the first segment that is absent, or that would step into a non-object, the lookup fails and returns the default |
| Config.PresentValueWins | config.js:80-87 | a path that resolves returns the value found, whatever it is (null, false, 0, ""), never the default |
| Config.GetConfigFrom | config.js:75-88 | `getConfig` on any configuration root; its behaviour is stated by Config.GetConfigDotted and Config.EmptyRootGivesDefault |
| Config.GetConfig | config.js:75-88 | `window.getConfig` on the shipped configuration; Config.StaticTokenIsNull, Config.ShippedResponseLiterals, Config.UnknownPathGivesDefault and Config.MissingTopLevelKeyGivesDefault state what it returns |
| Config.GetConfigDotted | config.js:75-88 | looking up `k.rest` equals looking up `rest` in the object under `k`; if `k` is missing or the root is not an object, the result is the default |
| Config.EmptyRootGivesDefault | config.js:75-88 | in an empty configuration every path yields its default |
| Config.StaticTokenIsNull | config.js:13 | `getConfig('directus.staticToken', d)` is null for every default `d` |
| Config.ShippedResponseLiterals | config.js:31-35 | `app.respuestas` resolves to the block whose three entries are exactly the backend literals of attend, decline and delegate |
| Config.UnknownPathGivesDefault | config.js:79-84 | stepping past a string setting (`app.title.size`) yields the default |
| Config.MissingTopLevelKeyGivesDefault | config.js:79-84 | any dot-free key that is not an own key of the configuration object (not `directus`, `app`, `ui` or `dev`) yields the default; inherited names are outside the model |
| Config.KeysPathSplits | config.js:76 | each of the three validation paths splits into exactly its key sequence |
| Config.ValidateCedulaWith | config.js:98-118 | a missing, empty or out-of-range input is refused with the length reason before any pattern test; past the length test, a configured regular expression decides: accepted iff it matches, otherwise the digits-only reason; with no truthy pattern the input is accepted; a truthy pattern that is not a regular expression throws |
| Config.ValidatorReadsConfig | config.js:99-101 | the validator's bounds and pattern are the `getConfig` values of the three dotted paths, with defaults 10, 11 and null |
| Config.IntToString | config.js:106 | `${n}` renders a number in decimal: for n >= 0 all digits whose decimal value is n, with no leading zero when n > 0 and exactly "0" for 0; for n < 0 a minus sign followed by the rendering of -n |
| Config.ValidateCedula | config.js:98-118 | `window.validateCedula` with the shipped settings; Config.ShippedValidatorExact and Config.ShippedRejectsMissing state its verdicts |
| Config.ShippedValidatorExact | config.js:40-46 | with the shipped settings, an input is accepted iff it has 10 or 11 characters, all ASCII digits; a bad length gives the length reason with bounds 10 and 11; a right-length non-digit input gives the digits-only reason |
| Config.ShippedBounds | config.js:39-42 | with the shipped settings the length bounds resolve to the numbers 10 and 11 |
| Config.ShippedPattern | config.js:45 | with the shipped settings the pattern resolves to the ten-to-eleven-digit pattern |
| Config.TenToElevenDigits | config.js:98-118 | any configuration whose bounds are 10 and 11 and whose pattern is ten to eleven digits accepts exactly the 10- or 11-character all-digit inputs, with the length reason or the pattern reason otherwise |
| Config.ShippedRejectsMissing | config.js:103-107 | a missing or empty ID is refused with the length reason |
| Config.ShippedLengthMessage | config.js:106 | the shipped length message reads "La cédula debe tener entre 10 y 11 dígitos" |
| Config.DefaultsWithoutSettings | config.js:99-101 | without validation settings the bounds are 10 and 11, no pattern applies, and only the length decides |
| Form.FormatCedula | form.js:381-383 | the stripped ID is all digits, no longer than the input, and equal to an all-digit input |
| Form.FormatCedulaAppend | form.js:382 | stripping distributes over concatenation, and one character survives iff it is a digit |
| Form.FormatCedulaCounts | form.js:382 | every digit survives as often as it occurs, and no other character survives |
| Form.FormatCedulaIdempotent | form.js:381-383 | stripping twice is stripping once |
| Form.ValidateCedula | form.js:385-388 | `utils.validateCedula`: 7 to 11 digits once non-digits are stripped; Form.ValidateIgnoresNonDigits states that only the digits decide |
| Form.ValidateIgnoresNonDigits | form.js:385-388 | the verdict depends only on the digits: adding non-digit characters before or after never changes it; an all-digit input passes iff it has 7 to 11 characters |
| Form.FormatCedulaInput | form.js:900-906 | the field keeps only digits, is a prefix of the stripped text, and has its length capped at 11 |
| Form.FormatCedulaInputStable | form.js:900-906 | the mask is idempotent, leaves short digit strings alone, and turns any entry with 7 or more digits into one the wizard accepts |
| Form.ValidateAdicionales | form.js:909-916 | NaN and negatives are corrected to 0 and values above 10 to 10; values in [0, 10] are left alone; every correction lies in [0, 10] |
| Form.ValidateAdicionalesSettles | form.js:909-916 | after the correction the field holds a value in [0, 10] that the normaliser leaves alone |
| Form.ProbeData | form.js:166-172 | a failed probe for an earlier response reads as "no rows"; a successful one hands over exactly the rows it returned |
| Form.SelectionKind | form.js:810-823 | exactly the three button strings are recognised, each as its own answer |
| Form.BuscarSocio | form.js:483-540 | an invalid ID shows the 7-11 message with no lookup and no change; a failed lookup or an empty result keeps the state; a hit stores the first member, stores the first earlier response (none when the probe failed or found nothing), goes to the invitation step, and leaves the other fields alone |
| Form.CambiarRespuesta | form.js:634-651 | with a member, only the edit flag changes, it becomes true, and no call or notice is issued; with no member the handler throws and the state is untouched |
| Form.FinalizarRespuesta | form.js:805-869 | an unknown choice errors with no call; otherwise exactly one call is sent: an update of the earlier response iff one is on record and editing is on, else a create carrying that answer's literal and the count; only success moves to confirmation (titled "updated" iff it was an update); failure leaves the state unchanged |
| Form.SeleccionarRespuesta | form.js:701-718 | attend or delegate changes only the choice (to that option) and the step (to companions), with no call or notice; any other choice records it, sets the count to 0 and submits |
| Form.SeleccionarAcompanantes | form.js:752-765 | "yes" changes only the step, to the count step, with no call or notice; "no" sets the count to 0 and submits |
| Form.ProcesarAdicionales | form.js:789-803 | `parseInt(...) \|\| 0` outside [0, 10] is refused with the state unchanged; otherwise it is stored and submitted |
| Form.NuevaConsulta | form.js:871-880 | every wizard field goes back to its initial value, with no call |
| Form.Handle | form.js:933-965 | the dispatch of each wizard event to its handler; Form.ConfirmationOnlyAfterSavedSubmission, Form.FailedSubmissionKeepsStep and Runs.EnabledStepPreservesInv state its properties |
| Form.ConfirmationOnlyAfterSavedSubmission | form.js:848-865 | entering confirmation needs exactly one create or update, and that call succeeded |
| Form.FailedSubmissionKeepsStep | form.js:866-868 | a failed create or update never moves into confirmation |
| Runs.InitialSatisfiesInv | form.js:10-16 | the initial state satisfies the reachable-state invariant |
| Runs.EnabledStepPreservesInv | form.js:701-869 | every event a step offers keeps the invariant and never throws on a missing member; before any backend call it refuses only a bad ID or a bad count, never an invalid choice; every create or update it sends carries a backend literal and a count in [0, 10], 0 for a decline |
| Runs.ConfirmedMeansConfirmationStep | form.js:848-865 | a confirmation notice comes with the confirmation step |
| Runs.RunCons | form.js:483-897 | a run of events is the first event's handler followed by the run of the rest: offered iff the first is offered and the rest is offered from the state it reaches, with the calls concatenated |
| Runs.EnabledRunKeepsInv | form.js:483-897 | any run of offered events ends in a state satisfying the invariant and sends only well-formed submissions |
| Runs.EnabledRunStatesKeepInv | form.js:483-897 | every intermediate state of such a run satisfies the invariant |
| Runs.ResubmitNeedsNewQuery | form.js:871-897 | after a confirmed submission, no later offered event submits again unless a "new query" came in between |
| Runs.ConfirmedThenNewQuery | form.js:871-897 | in an offered run, the event right after a confirmation is "new query", the only button the confirmation step offers |
| Runs.NewQueryAlwaysResets | form.js:871-880 | "new query" from any state reaches the initial state, which satisfies the invariant |
| Runs.AttendWithTwoCompanions | form.js:701-869 | a member with no earlier response who attends with two companions sends lookup, probe and one create of "ASISTIRÁ" with 2, and ends on confirmation |
| Runs.ChangeToDeclineUpdates | form.js:634-869 | a member with an earlier response who changes it to decline sends one update of that row to "NO ASISTIRÁ" with 0 |
| Dashboard.RespuestaLabel | main.js:219-225 | each stored literal gets its answer's label, and anything else gets "Sin Respuesta" |
| Dashboard.RespuestaClass | main.js:227-233 | each stored literal gets its answer's CSS class, and anything else gets "sin-respuesta" |
| Dashboard.BadgesDistinct | main.js:219-233 | the three answers get pairwise distinct labels and classes, none of them the default |
| Dashboard.PlaceholderGetsDefault | main.js:224 | the placeholder "SIN_RESPUESTA" gets the default badge |
| Dashboard.LabelDeterminesClass | main.js:219-233 | two answers have the same label iff they have the same class |
| Dashboard.Count | main.js:256-268 | no answer counter exceeds the number of rows |
| Dashboard.CalculateStats | main.js:247-280 | the one-pass if/else-if loop computes each counter as defined on its own: the rows per answer, people and companions over attending and representative rows, and the row-count difference |
| Dashboard.CountsBounded | main.js:256-268 | each row lands in at most one answer counter, so the three sum to at most the number of rows |
| Dashboard.PeopleSplits | main.js:257-266 | people expected = attending rows + representatives + all their companions |
| Dashboard.StatsTotals | main.js:247-280 | totalPersonas = confirmados + representantes + totalAdicionales; the three answer counters fit in the rows; sinRespuesta = members − rows |
| Dashboard.AppendRowEffect | main.js:256-270 | one more decline row only raises the decline counter; one more row with an unknown literal changes no counter; both lower sinRespuesta by one |
| Dashboard.NoResponseCardCanBeNegative | main.js:270 | one member with two rows shows sinRespuesta −1, while the table uses the later row |
| Dashboard.BuildMap | main.js:513-516 | the `respuestasMap` object; Dashboard.BuildMapLastWins states that it holds exactly the ids with a row, each with its last row |
| Dashboard.BuildMapLastWins | main.js:513-516 | the map holds an id iff some row carries it, and then holds that member's last row |
| Dashboard.RowFor | main.js:520-527 | a member without a response gets the placeholder row with 0 people; with a response the row carries its answer (`"SIN_RESPUESTA"` when it is empty), its companion count (`|| 0`), its confirmation date or else its creation date, and 1 + companions people |
| Dashboard.JoinRows | main.js:519-528 | exactly one row per member, in member order |
| Dashboard.JoinUsesLastResponse | main.js:513-528 | a member with no rows gets the placeholder row; otherwise the row is built from the member's last response row |
| Dashboard.Select | main.js:531-540 | filtering never adds rows and keeps exactly the rows it accepts |
| Dashboard.SelectCounts | main.js:531-540 | filtering keeps each accepted row as many times as it occurs and drops every other row (multiset count) |
| Dashboard.SelectIsSubsequence | main.js:531-540 | a filtered table is a subsequence of the table |
| Dashboard.SelectAll | main.js:531-540 | a filter accepting every row leaves the table unchanged |
| Dashboard.SelectAnd | main.js:531-540 | two filters in a row keep what both accept |
| Dashboard.SelectCommutes | main.js:531-540 | two filters can be applied in either order |
| Dashboard.FilterKind | main.js:531-533 | an empty answer filter keeps everything; otherwise the rows kept are exactly those whose answer equals it |
| Dashboard.FilterSearch | main.js:535-540 | an empty query keeps everything; otherwise the rows kept are exactly those whose lower-cased name, or whose ID as stored, contains the lower-cased query |
| Dashboard.ApplyFilters | main.js:530-540 | the table on screen; Dashboard.FiltersSelect and Dashboard.FiltersCommute state what it keeps |
| Dashboard.FiltersSelect | main.js:531-540 | the table on screen is a subsequence of the join, made of the rows that pass both filters (an empty filter passes all) and nothing else |
| Dashboard.FiltersCommute | main.js:531-540 | the answer filter and the search commute |
| Dashboard.LoadData | main.js:453-463 | each list is replaced only by its own successful fetch; a failed fetch keeps the old list and adds one banner; the session is untouched |
| Dashboard.LoadDataSettles | main.js:453-463 | refreshing twice with the same results is refreshing once; a refresh where both fetches fail changes nothing |
| Dashboard.Logout | main.js:488-495 | user and token cleared, both lists empty |
| Dashboard.Login | main.js:409-441 | a failed login only shows its error; a successful one stores token and user, and each list becomes its fetched data, or stays as it was with the load's error banners when its fetch fails |
| Dashboard.RefreshTick | main.js:614-618 | the timer loads only while a non-empty token is held |
| Dashboard.LogoutStopsRefresh | main.js:488-495 | logout always reaches the signed-out state, is idempotent, and after it the timer loads nothing |
| Dashboard.SignedOutStats | main.js:488-495 | a signed-out dashboard shows all counters at 0 |
| Dashboard.ExportRows | main.js:581-596 | one export row per member |
| Dashboard.ExportIsUnfilteredTable | main.js:581-596 | the export rows are the on-screen table with both filters empty |
| Divergence.ConfigValidImpliesWizardValid | form.js:385-388 | every ID the configuration's validator accepts, the wizard accepts too |
| Divergence.ShortIdSplitsValidators | config.js:103-108 | a 7- to 9-digit ID passes the wizard and fails the configuration's length check |
| Divergence.SeparatorsSplitValidators | config.js:110-115 | 7 to 11 digits followed by non-digit characters pass the wizard and never pass the configuration's validator |
| Divergence.JunkIsNotDigits | form.js:381-383 | input ending in characters the stripping erases is not all digits |
| Divergence.SevenDigitWitness | form.js:387 | "1234567" is accepted by the wizard and refused by the configuration's validator |

## Left out

- HTTP adapters (`DirectusPublicAPI`, `DirectusAPI`: fetch, abort timeouts, status-to-message mapping) are network I/O. Their results enter only as event fields (`LookupOutcome`, `ProbeOutcome`, `SubmitOutcome`, `Fetch`, `LoginResult`).
- DOM rendering is not modelled. This covers step visibility, templates, the existing-response panel, badges as HTML, banners and their timers, and alerts. `showStep` is assumed to find its step element, so it always sets the step.
- The wizard's `Invitation` step offers both the answer buttons and the existing-response card's buttons (`Runs.Enabled`). Which panel is on screen depends on rendering history.
- PDF export (jsPDF, image fetch, the `fundador` sort) uses foreign libraries. Only the rows handed to it are modelled.
- Dates and the clock are not modelled. The confirmation timestamp is an opaque string parameter, and `formatDate` is left out.
- Each wizard handler is one atomic step, although `buscarSocio` and `finalizarRespuesta` wait on the network in mid-handler (`form.js:496-500`, `form.js:834-846`). Runs.ResubmitNeedsNewQuery and the other run properties assume that no input event arrives while a request is pending. The only guard in the code is the `globalLoading` overlay (`form.js:348-356`), a CSS class that is assumed to block every input.
- `Promise.all`, the overlapping 30-second refresh timer and the loading flags are concurrency. Each refresh is modelled as one atomic step.
- Mobile enhancements, scroll indicators, the login display name, screen switching and `devLog` are presentation or logging.
- `parseInt` string parsing is not modelled. The parsed companion count is an `Option<int>`, with None for NaN.
- `trim()` before the wizard's ID check is dropped. Whitespace is not a digit, so stripping gives the same result with or without it.
- Config.Keys: prototype-chain keys (`in` also sees inherited names such as `toString`) are not modelled. Only own keys of plain objects are seen, and a regular expression offers no keys.
- Config.ToNumber: numeric-string settings are not converted (a string bound compares as NaN here). The shipped settings hold numbers.
- Config.PatternMatches: only the pattern shape `^\d{lo,hi}$` is modelled. It is the only one the configuration uses.
- Config.ValidateCedulaWith: lengths are counted in characters, not UTF-16 code units. The two differ only outside the Basic Multilingual Plane.
- Base.LowerChar: lower-casing covers ASCII and Latin-1 capitals only. Other scripts are left unchanged.
- Member fields `nombre` and `cedula` are taken to be non-null strings. The source throws a TypeError when they are not: a null `nombre` at `form.js:517` (inside `buscarSocio`, after the member and the earlier response are stored and before the invitation step is shown) and at `main.js:537` (the search filter), and a numeric `cedula` at `main.js:538` (`includes` does not exist on numbers).
- Member and response ids are integers. The dashboard's map uses them as object keys, where the string conversion of an integer is injective.

=== FILE: Base.dfy ===
/** Small shared vocabulary: an optional value, ASCII digits, the lower-casing
    the dashboard search applies, and substring containment. */
module Base {

  /** A value that may be absent; stands for JavaScript's null/undefined. */
  datatype Option<+T> = None | Some(value: T) {

    /** The wrapped value, or `default` when absent. */
    function GetOr(default: T): T {
      match this
      case Some(v) => v
      case None => default
    }
  }

  /** The characters matched by `\d` in a JavaScript regular expression
      without the `u` flag. */
  predicate IsDigit(c: char) {
    '0' <= c <= '9'
  }

  predicate AllDigits(s: string) {
    forall i :: 0 <= i < |s| ==> IsDigit(s[i])
  }

  /** JavaScript truthiness of an optional string used in `x || fallback`:
      null, undefined and the empty string are falsy. */
  function OrElse(x: Option<string>, fallback: string): (r: string)
    ensures x.Some? && x.value != "" ==> r == x.value
    ensures (x.None? || x.value == "") ==> r == fallback
  {
    if x.Some? && x.value != "" then x.value else fallback
  }

  /** The same truthiness test for an optional string producing an optional
      result, as in `a || b || null`. */
  function FirstTruthy(a: Option<string>, b: Option<string>): (r: Option<string>)
    ensures r.Some? ==> r.value != ""
    ensures a.Some? && a.value != "" ==> r == a
    ensures (a.None? || a.value == "") && b.Some? && b.value != "" ==> r == b
    ensures (a.None? || a.value == "") && (b.None? || b.value == "") ==> r.None?
  {
    if a.Some? && a.value != "" then a
    else if b.Some? && b.value != "" then b
    else None
  }

  /** `String.prototype.toLowerCase` on one character, for the ASCII capitals
      and the Latin-1 capitals À..Þ (without ×), which map 32 code points up. */
  function LowerChar(c: char): (r: char)
    ensures 'A' <= c <= 'Z' ==> r as int == c as int + 32
    ensures ('À' <= c <= 'Þ' && c != '×') ==> r as int == c as int + 32
    ensures c == '×' ==> r == c
    ensures !('A' <= c <= 'Z') && !('À' <= c <= 'Þ') ==> r == c
  {
    if 'A' <= c <= 'Z' || ('À' <= c <= 'Þ' && c != '×') then
      (c as int + 32) as char
    else
      c
  }

  function ToLower(s: string): (r: string)
    ensures |r| == |s|
    ensures forall i :: 0 <= i < |s| ==> r[i] == LowerChar(s[i])
  {
    seq(|s|, i requires 0 <= i < |s| => LowerChar(s[i]))
  }

  /** `needle` occurs in `hay` starting at offset `i`. */
  predicate OccursAt(hay: string, needle: string, i: int) {
    0 <= i && i + |needle| <= |hay| && hay[i..i + |needle|] == needle
  }

  /** `hay.includes(needle)`: `needle` occurs at some offset of `hay`. */
  predicate Contains(hay: string, needle: string) {
    exists i :: 0 <= i <= |hay| && OccursAt(hay, needle, i)
  }
}

=== FILE: Config.dfy ===
/** The shared configuration: a tree of named values, the dotted-path lookup
    `getConfig` with its default, and the configurable national-ID validator. */
module Config {
  import opened Base
  import Records

  /** A configuration value. `Pattern(lo, hi)` is the regular expression
      `^\d{lo,hi}$`, the only pattern shape the configuration uses. */
  datatype Value =
    | Obj(fields: map<string, Value>)
    | Str(s: string)
    | Num(n: int)
    | Bool(b: bool)
    | Pattern(lo: nat, hi: nat)
    | Null

  /** `current && typeof current === 'object'`: non-null objects, which a
      path may step into. A regular expression is an object too. */
  predicate IsObject(v: Value) {
    v.Obj? || v.Pattern?
  }

  /** JavaScript truthiness of a configuration value. */
  predicate Truthy(v: Value) {
    match v
    case Obj(_) => true
    case Pattern(_, _) => true
    case Str(s) => s != ""
    case Num(n) => n != 0
    case Bool(b) => b
    case Null => false
  }

  /** The own keys a path can step through; a regular expression offers none
      in this model. */
  function Keys(v: Value): set<string> {
    if v.Obj? then v.fields.Keys else {}
  }

  // ---------------------------------------------------------------------
  // `path.split('.')` and its inverse

  /** `String.prototype.split` with a one-character separator: empty pieces
      are kept and the result is never empty. */
  function Split(s: string, sep: char): (parts: seq<string>)
    ensures |parts| >= 1
    ensures forall i :: 0 <= i < |parts| ==> sep !in parts[i]
    decreases |s|
  {
    if |s| == 0 then [""]
    else
      var rest := Split(s[1..], sep);
      if s[0] == sep then [""] + rest
      else [[s[0]] + rest[0]] + rest[1..]
  }

  /** `Array.prototype.join` with a one-character separator. */
  function Join(parts: seq<string>, sep: char): string
    requires |parts| >= 1
  {
    if |parts| == 1 then parts[0]
    else parts[0] + [sep] + Join(parts[1..], sep)
  }

  /** Prepending a character to the first piece prepends it to the join. */
  lemma JoinExtendFirst(c: char, parts: seq<string>, sep: char)
    requires |parts| >= 1
    ensures Join([[c] + parts[0]] + parts[1..], sep) == [c] + Join(parts, sep)
  {
    var q := [[c] + parts[0]] + parts[1..];
    assert q[1..] == parts[1..];
  }

  /** Splitting and joining again gives back the path. */
  lemma {:induction false} JoinSplit(s: string, sep: char)
    ensures Join(Split(s, sep), sep) == s
    decreases |s|
  {
    if |s| > 0 {
      var rest := Split(s[1..], sep);
      JoinSplit(s[1..], sep);
      if s[0] == sep {
        assert ([""] + rest)[1..] == rest;
      } else {
        JoinExtendFirst(s[0], rest, sep);
      }
      assert s == [s[0]] + s[1..];
    }
  }

  /** A separator-free prefix is glued onto the first piece of the rest. */
  lemma {:induction false} SplitPrefix(p: string, t: string, sep: char)
    requires sep !in p
    ensures Split(p + t, sep) == [p + Split(t, sep)[0]] + Split(t, sep)[1..]
    decreases |p|
  {
    if |p| > 0 {
      var s := p + t;
      assert s[0] == p[0];
      assert s[1..] == p[1..] + t;
      SplitPrefix(p[1..], t, sep);
      assert [p[0]] + (p[1..] + Split(t, sep)[0]) == p + Split(t, sep)[0];
    } else {
      assert p == "";
      assert p + t == t;
      assert p + Split(t, sep)[0] == Split(t, sep)[0];
      assert Split(t, sep) == [Split(t, sep)[0]] + Split(t, sep)[1..];
    }
  }

  /** A piece followed by the separator splits off as the first piece. */
  lemma SplitAfterPiece(p: string, sep: char, u: string)
    requires sep !in p
    ensures Split(p + [sep] + u, sep) == [p] + Split(u, sep)
  {
    assert p + [sep] + u == p + ([sep] + u);
    SplitPrefix(p, [sep] + u, sep);
    assert ([sep] + u)[1..] == u;
    assert Split([sep] + u, sep) == [""] + Split(u, sep);
    assert p + "" == p;
  }

  /** Joining separator-free pieces and splitting again gives back the pieces. */
  lemma {:induction false} SplitJoin(parts: seq<string>, sep: char)
    requires |parts| >= 1
    requires forall i :: 0 <= i < |parts| ==> sep !in parts[i]
    ensures Split(Join(parts, sep), sep) == parts
    decreases |parts|
  {
    if |parts| == 1 {
      SplitPrefix(parts[0], "", sep);
      assert parts[0] + "" == parts[0];
    } else {
      SplitAfterPiece(parts[0], sep, Join(parts[1..], sep));
      SplitJoin(parts[1..], sep);
      assert parts == [parts[0]] + parts[1..];
    }
  }

  /** A dotted path splits into its first segment followed by the pieces of
      the remainder. */
  lemma SplitFirstSegment(k: string, rest: string)
    requires '.' !in k
    ensures Split(k + "." + rest, '.') == [k] + Split(rest, '.')
  {
    SplitAfterPiece(k, '.', rest);
  }

  // ---------------------------------------------------------------------
  // `getConfig(path, defaultValue)`

  /** The value reached by following `keys` from `v`, or None as soon as a
      key is absent or the current value is not an object. */
  function Resolve(v: Value, keys: seq<string>): (r: Option<Value>)
    decreases |keys|
  {
    if |keys| == 0 then Some(v)
    else if IsObject(v) && keys[0] in Keys(v) then Resolve(v.fields[keys[0]], keys[1..])
    else None
  }

  /** `getConfig` started at `root`: resolve the dotted path, else the default. */
  function GetConfigFrom(root: Value, path: string, default: Value): Value {
    Resolve(root, Split(path, '.')).GetOr(default)
  }

  /** Following `a + b` is following `a`, then `b` from where `a` ended. */
  lemma {:induction false} ResolveAppend(v: Value, a: seq<string>, b: seq<string>)
    ensures Resolve(v, a + b) ==
            (match Resolve(v, a)
             case Some(w) => Resolve(w, b)
             case None => None)
    decreases |a|
  {
    if |a| > 0 {
      assert (a + b)[0] == a[0];
      assert (a + b)[1..] == a[1..] + b;
      if IsObject(v) && a[0] in Keys(v) {
        ResolveAppend(v.fields[a[0]], a[1..], b);
      }
    } else {
      assert a + b == b;
    }
  }

  /** The lookup gives up at the first segment that is absent or that would
      step into a non-object: every longer path then yields the default. */
  lemma DefaultAtMissingSegment(root: Value, keys: seq<string>, i: nat, default: Value)
    requires i < |keys|
    requires Resolve(root, keys[..i]).Some?
    requires var w := Resolve(root, keys[..i]).value; !IsObject(w) || keys[i] !in Keys(w)
    ensures Resolve(root, keys) == None
    ensures Resolve(root, keys).GetOr(default) == default
  {
    assert keys == keys[..i] + keys[i..];
    ResolveAppend(root, keys[..i], keys[i..]);
  }

  /** Presence, not truthiness, decides: a key that is present yields its
      value even when that value is null, false, 0 or "". */
  lemma PresentValueWins(root: Value, path: string, default: Value)
    requires Resolve(root, Split(path, '.')).Some?
    ensures GetConfigFrom(root, path, default) == Resolve(root, Split(path, '.')).value
  {
  }

  /** Looking up `k.rest` is looking up `rest` inside the value under `k`. */
  lemma GetConfigDotted(root: Value, k: string, rest: string, default: Value)
    requires '.' !in k
    ensures GetConfigFrom(root, k + "." + rest, default) ==
            (if IsObject(root) && k in Keys(root)
             then GetConfigFrom(root.fields[k], rest, default)
             else default)
  {
    SplitFirstSegment(k, rest);
    ResolveAppend(root, [k], Split(rest, '.'));
    assert ([k] + Split(rest, '.'))[1..] == Split(rest, '.');
  }

  /** Dotted paths written as separator-free pieces joined by dots split
      back into those pieces. */
  lemma PathPieces(path: string, parts: seq<string>)
    requires |parts| >= 1
    requires forall i :: 0 <= i < |parts| ==> '.' !in parts[i]
    requires Join(parts, '.') == path
    ensures Split(path, '.') == parts
  {
    SplitJoin(parts, '.');
  }

  /** Any path looked up in an empty object yields the default. */
  lemma EmptyRootGivesDefault(path: string, default: Value)
    ensures GetConfigFrom(Obj(map[]), path, default) == default
  {
  }

  // ---------------------------------------------------------------------
  // The shipped configuration (`window.AppConfig`)

  const ResponseLiterals: Value := Obj(map[
    "asistira" := Str("ASISTIRÁ"),
    "noAsistira" := Str("NO ASISTIRÁ"),
    "representante" := Str("ENVIARÁ UN REPRESENTANTE")])

  const Validation: Value := Obj(map[
    "cedulaLength" := Obj(map["min" := Num(10), "max" := Num(11)]),
    "cedulaPattern" := Pattern(10, 11),
    "maxAdicionales" := Num(10)])

  const AppConfig: Value := Obj(map[
    "directus" := Obj(map[
      "url" := Str("https://directus.luispinta.com"),
      "sociosCollection" := Str("matriz"),
      "inauguracionCollection" := Str("inauguracion"),
      "timeout" := Num(10000),
      "staticToken" := Null]),
    "app" := Obj(map[
      "title" := Str("Sistema de Inauguración"),
      "evento" := Obj(map[
        "nombre" := Str("Inauguración de la Caja de Ahorros Tupak Rantina"),
        "fecha" := Str("domingo 31 de agosto"),
        "ciudad" := Str("Machachi"),
        "direccion" := Str("Avenida Amazonas"),
        "hora" := Str("9:00 de la mañana")]),
      "respuestas" := ResponseLiterals,
      "validacion" := Validation]),
    "ui" := Obj(map[
      "tiempoMensaje" := Num(3000),
      "animaciones" := Obj(map["duracionFade" := Num(300)])]),
    "dev" := Obj(map["debug" := Bool(true), "datosDemo" := Bool(false)])])

  /** `window.getConfig`: lookup from the shipped configuration. */
  function GetConfig(path: string, default: Value): Value {
    GetConfigFrom(AppConfig, path, default)
  }

  /** The static token is present with value null, so it is returned instead
      of any default. */
  lemma StaticTokenIsNull(default: Value)
    ensures GetConfig("directus.staticToken", default) == Null
  {
    StaticTokenPath(AppConfig, default);
    StaticTokenEntry();
  }

  lemma StaticTokenEntry()
    ensures Resolve(AppConfig, ["directus", "staticToken"]) == Some(Null)
  {
  }

  lemma StaticTokenPath(root: Value, default: Value)
    ensures GetConfigFrom(root, "directus.staticToken", default)
            == Resolve(root, ["directus", "staticToken"]).GetOr(default)
  {
    PathPieces("directus.staticToken", ["directus", "staticToken"]);
  }

  /** The block of response literals the dashboard reads: the same three
      literals the wizard submits. */
  lemma ShippedResponseLiterals(default: Value)
    ensures GetConfig("app.respuestas", default) == ResponseLiterals
    ensures ResponseLiterals.fields["asistira"] == Str(Records.Literal(Records.Attend))
    ensures ResponseLiterals.fields["noAsistira"] == Str(Records.Literal(Records.Decline))
    ensures ResponseLiterals.fields["representante"] == Str(Records.Literal(Records.Delegate))
  {
    ResponsesPath(AppConfig, default);
    ResponsesEntry();
  }

  lemma ResponsesEntry()
    ensures Resolve(AppConfig, ["app", "respuestas"]) == Some(ResponseLiterals)
  {
  }

  lemma ResponsesPath(root: Value, default: Value)
    ensures GetConfigFrom(root, "app.respuestas", default)
            == Resolve(root, ["app", "respuestas"]).GetOr(default)
  {
    PathPieces("app.respuestas", ["app", "respuestas"]);
  }

  /** A path that steps into a string, or names a missing key, yields the
      default. */
  lemma UnknownPathGivesDefault(default: Value)
    ensures GetConfig("app.title.size", default) == default
  {
    TitleSizePath(AppConfig, default);
    TitleSizeEntry();
  }

  lemma TitleSizeEntry()
    ensures Resolve(AppConfig, ["app", "title", "size"]) == None
  {
  }

  lemma TitleSizePath(root: Value, default: Value)
    ensures GetConfigFrom(root, "app.title.size", default)
            == Resolve(root, ["app", "title", "size"]).GetOr(default)
  {
    PathPieces("app.title.size", ["app", "title", "size"]);
  }

  lemma MissingTopLevelKeyGivesDefault(k: string, default: Value)
    requires '.' !in k
    requires k != "directus" && k != "app" && k != "ui" && k != "dev"
    ensures GetConfig(k, default) == default
  {
    LastSegment(k);
  }

  /** A dot-free path splits into itself. */
  lemma LastSegment(k: string)
    requires '.' !in k
    ensures Split(k, '.') == [k]
  {
    SplitPrefix(k, "", '.');
    assert k + "" == k;
  }

  // ---------------------------------------------------------------------
  // `window.validateCedula`

  /** The three lookups the validator makes, with their paths split. */
  const PatternKeys: seq<string> := ["app", "validacion", "cedulaPattern"]
  const MinKeys: seq<string> := ["app", "validacion", "cedulaLength", "min"]
  const MaxKeys: seq<string> := ["app", "validacion", "cedulaLength", "max"]

  /** Joining three or four pieces, written out. */
  lemma JoinThree(a: string, b: string, c: string)
    ensures Join([a, b, c], '.') == a + ("." + (b + ("." + c)))
  {
    assert [a, b, c][1..] == [b, c];
    assert [b, c][1..] == [c];
    assert Join([b, c], '.') == b + ['.'] + c;
    assert b + ['.'] + c == b + ("." + c);
    assert a + ['.'] + (b + ("." + c)) == a + ("." + (b + ("." + c)));
  }

  lemma JoinFour(a: string, b: string, c: string, d: string)
    ensures Join([a, b, c, d], '.') == a + ("." + (b + ("." + (c + ("." + d)))))
  {
    assert [a, b, c, d][1..] == [b, c, d];
    JoinThree(b, c, d);
    var t := b + ("." + (c + ("." + d)));
    assert a + ['.'] + t == a + ("." + t);
  }

  /** The three paths are the dotted joins of their key sequences. */
  lemma PatternPathJoins()
    ensures Join(PatternKeys, '.') == "app.validacion.cedulaPattern"
  {
    JoinThree("app", "validacion", "cedulaPattern");
  }

  lemma MinPathJoins()
    ensures Join(MinKeys, '.') == "app.validacion.cedulaLength.min"
  {
    JoinFour("app", "validacion", "cedulaLength", "min");
  }

  lemma MaxPathJoins()
    ensures Join(MaxKeys, '.') == "app.validacion.cedulaLength.max"
  {
    JoinFour("app", "validacion", "cedulaLength", "max");
  }

  /** A path that joins dot-free keys splits back into them. */
  lemma KeysPathSplits(path: string, keys: seq<string>)
    requires keys == PatternKeys || keys == MinKeys || keys == MaxKeys
    requires path == Join(keys, '.')
    ensures Split(path, '.') == keys
  {
    PathPieces(path, keys);
  }

  /** `Number(v)` for the values a length bound can hold; None is NaN.
      Numeric strings are not converted in this model. */
  function ToNumber(v: Value): Option<int> {
    match v
    case Num(n) => Some(n)
    case Null => Some(0)
    case Bool(b) => Some(if b then 1 else 0)
    case _ => None
  }

  /** `a < v` and `a > v` for a number `a`; every comparison with NaN is false. */
  predicate Below(a: int, v: Value) {
    ToNumber(v).Some? && a < ToNumber(v).value
  }

  predicate Above(a: int, v: Value) {
    ToNumber(v).Some? && a > ToNumber(v).value
  }

  /** `pattern.test(s)` for the one pattern shape `^\d{lo,hi}$`. */
  predicate PatternMatches(lo: nat, hi: nat, s: string) {
    lo <= |s| <= hi && AllDigits(s)
  }

  datatype Reason =
    | BadLength(min: Value, max: Value)  // length missing or outside [min, max]
    | NotOnlyDigits                      // pattern did not match

  datatype Verdict =
    | Valid
    | Invalid(reason: Reason)
    | Throws   // a truthy pattern setting that is not a regular expression

  /** The length bounds the validator uses for configuration `root`. */
  function MinLength(root: Value): Value {
    Resolve(root, MinKeys).GetOr(Num(10))
  }

  function MaxLength(root: Value): Value {
    Resolve(root, MaxKeys).GetOr(Num(11))
  }

  /** The length test that comes first: a missing or empty input, or one whose
      length lies outside the bounds. */
  predicate LengthRejected(root: Value, cedula: Option<string>) {
    cedula.None? || cedula.value == ""
    || Below(|cedula.value|, MinLength(root)) || Above(|cedula.value|, MaxLength(root))
  }

  /** The validator for configuration `root` and an input that may be missing
      (None). The length test comes before the pattern test. */
  function ValidateCedulaWith(root: Value, cedula: Option<string>): (r: Verdict)
    ensures LengthRejected(root, cedula) ==> r == Invalid(BadLength(MinLength(root), MaxLength(root)))
    ensures r.Invalid? && r.reason.NotOnlyDigits? ==>
              !LengthRejected(root, cedula) && Resolve(root, PatternKeys).Some?
              && Resolve(root, PatternKeys).value.Pattern?
    ensures r == Valid ==> !LengthRejected(root, cedula)
    ensures !LengthRejected(root, cedula) && Resolve(root, PatternKeys).GetOr(Null).Pattern? ==>
              var p := Resolve(root, PatternKeys).GetOr(Null);
              (r == Valid <==> PatternMatches(p.lo, p.hi, cedula.value))
              && (r != Valid ==> r == Invalid(NotOnlyDigits))
    ensures !LengthRejected(root, cedula) && !Truthy(Resolve(root, PatternKeys).GetOr(Null)) ==> r == Valid
    ensures (!LengthRejected(root, cedula) && Truthy(Resolve(root, PatternKeys).GetOr(Null))
             && !Resolve(root, PatternKeys).GetOr(Null).Pattern?) ==> r == Throws
  {
    var patron := Resolve(root, PatternKeys).GetOr(Null);
    if LengthRejected(root, cedula) then
      Invalid(BadLength(MinLength(root), MaxLength(root)))
    else if Truthy(patron) then
      match patron
      case Pattern(lo, hi) =>
        if PatternMatches(lo, hi, cedula.value) then Valid else Invalid(NotOnlyDigits)
      case _ => Throws
    else
      Valid
  }

  /** The validator reads exactly the three dotted paths of the source, with
      their defaults. */
  lemma ValidatorReadsConfig(root: Value)
    ensures MinLength(root) == GetConfigFrom(root, "app.validacion.cedulaLength.min", Num(10))
    ensures MaxLength(root) == GetConfigFrom(root, "app.validacion.cedulaLength.max", Num(11))
    ensures Resolve(root, PatternKeys).GetOr(Null) == GetConfigFrom(root, "app.validacion.cedulaPattern", Null)
  {
    PatternPathJoins();
    MinPathJoins();
    MaxPathJoins();
    KeysPathSplits("app.validacion.cedulaLength.min", MinKeys);
    KeysPathSplits("app.validacion.cedulaLength.max", MaxKeys);
    KeysPathSplits("app.validacion.cedulaPattern", PatternKeys);
  }

  /** The validator as shipped. */
  function ValidateCedula(cedula: Option<string>): Verdict {
    ValidateCedulaWith(AppConfig, cedula)
  }

  /** The value of a string of decimal digits, read most significant first. */
  function DecimalValue(s: string): nat
    requires AllDigits(s)
  {
    if |s| == 0 then 0
    else 10 * DecimalValue(s[..|s| - 1]) + (s[|s| - 1] as int - '0' as int)
  }

  /** Decimal rendering of an integer, as a template literal shows it: a
      minus sign for negatives, then the digits of the magnitude with no
      leading zero. */
  function IntToString(n: int): (s: string)
    ensures |s| >= 1
    ensures n >= 0 ==> AllDigits(s) && DecimalValue(s) == n
    ensures n > 0 ==> s[0] != '0'
    ensures n == 0 ==> s == "0"
    ensures n < 0 ==> s[0] == '-' && AllDigits(s[1..]) && DecimalValue(s[1..]) == -n && s[1] != '0'
    decreases if n < 0 then 1 - n else n
  {
    if n < 0 then "-" + IntToString(-n)
    else if n < 10 then [('0' as int + n) as char]
    else IntToString(n / 10) + [('0' as int + n % 10) as char]
  }

  /** `${v}` for a configuration value. */
  function Display(v: Value): string {
    match v
    case Obj(_) => "[object Object]"
    case Str(s) => s
    case Num(n) => IntToString(n)
    case Bool(b) => if b then "true" else "false"
    case Pattern(lo, hi) => "/^\\d{" + IntToString(lo) + "," + IntToString(hi) + "}$/"
    case Null => "null"
  }

  /** The `mensaje` the validator returns with each rejection. */
  function Message(r: Reason): string {
    match r
    case BadLength(min, max) =>
      "La cédula debe tener entre " + Display(min) + " y " + Display(max) + " dígitos"
    case NotOnlyDigits => "La cédula solo debe contener números"
  }

  /** With the shipped configuration the validator accepts exactly the
      strings of 10 or 11 ASCII digits, rejecting a bad length with the
      length message before it looks at the characters. */
  lemma ShippedValidatorExact(s: string)
    ensures ValidateCedula(Some(s)) == Valid <==> 10 <= |s| <= 11 && AllDigits(s)
    ensures !(10 <= |s| <= 11) ==> ValidateCedula(Some(s)) == Invalid(BadLength(Num(10), Num(11)))
    ensures 10 <= |s| <= 11 && !AllDigits(s) ==> ValidateCedula(Some(s)) == Invalid(NotOnlyDigits)
  {
    ShippedBounds();
    ShippedPattern();
    TenToElevenDigits(AppConfig, s);
  }

  /** The shipped bounds are 10 and 11 and the shipped pattern is `^\d{10,11}$`. */
  lemma ShippedBounds()
    ensures MinLength(AppConfig) == Num(10) && MaxLength(AppConfig) == Num(11)
  {
    ShippedMin();
    ShippedMax();
  }

  lemma ShippedMin()
    ensures Resolve(AppConfig, MinKeys) == Some(Num(10))
  {
  }

  lemma ShippedMax()
    ensures Resolve(AppConfig, MaxKeys) == Some(Num(11))
  {
  }

  lemma ShippedPattern()
    ensures Resolve(AppConfig, PatternKeys) == Some(Pattern(10, 11))
  {
  }

  /** Under bounds 10 and 11 and the pattern `^\d{10,11}$`, an input is
      accepted iff it has 10 or 11 characters, all digits. */
  lemma TenToElevenDigits(root: Value, s: string)
    requires MinLength(root) == Num(10) && MaxLength(root) == Num(11)
    requires Resolve(root, PatternKeys) == Some(Pattern(10, 11))
    ensures ValidateCedulaWith(root, Some(s)) == Valid <==> 10 <= |s| <= 11 && AllDigits(s)
    ensures !(10 <= |s| <= 11) ==> ValidateCedulaWith(root, Some(s)) == Invalid(BadLength(Num(10), Num(11)))
    ensures 10 <= |s| <= 11 && !AllDigits(s) ==> ValidateCedulaWith(root, Some(s)) == Invalid(NotOnlyDigits)
  {
  }

  /** A missing input is rejected with the length message. */
  lemma ShippedRejectsMissing()
    ensures ValidateCedula(None) == Invalid(BadLength(Num(10), Num(11)))
    ensures ValidateCedula(Some("")) == Invalid(BadLength(Num(10), Num(11)))
  {
    ShippedBounds();
  }

  lemma ShippedLengthMessage()
    ensures Message(BadLength(Num(10), Num(11))) == "La cédula debe tener entre 10 y 11 dígitos"
  {
    assert IntToString(10) == "10";
    assert IntToString(11) == "11";
  }

  /** Without any validation settings the bounds default to 10 and 11 and no
      pattern is applied: only the length decides. */
  lemma DefaultsWithoutSettings(s: string)
    ensures MinLength(Obj(map[])) == Num(10) && MaxLength(Obj(map[])) == Num(11)
    ensures ValidateCedulaWith(Obj(map[]), Some(s)) == Valid <==> 10 <= |s| <= 11
  {
  }
}

=== FILE: Dashboard.dfy ===
/** The administrator dashboard: the badge of each answer, the summary
    counters, the member/response table with its two filters, the export
    rows, and the session rules for loading data and logging out. The
    answers are compared against the `app.respuestas` literals of the
    configuration, which are `Records.Literal` (see
    `Config.ShippedResponseLiterals`). */
module Dashboard {
  import opened Base
  import opened Records

  // ---------------------------------------------------------------------
  // Badges

  /** The answer a table row carries when its member has no usable response. */
  const NoResponse := "SIN_RESPUESTA"

  /** The badge text a dashboard-facing answer gets, by answer. */
  function KindLabel(k: Kind): string {
    match k
    case Attend => "Asistirá"
    case Decline => "No Asistirá"
    case Delegate => "Enviará Representante"
  }

  /** The badge CSS class, by answer. */
  function KindClass(k: Kind): string {
    match k
    case Attend => "asistira"
    case Decline => "no-asistira"
    case Delegate => "representante"
  }

  /** `getRespuestaLabel`: the three stored literals, then a default. */
  function RespuestaLabel(respuesta: string): (text: string)
    ensures KindOf(respuesta).Some? ==> text == KindLabel(KindOf(respuesta).value)
    ensures KindOf(respuesta).None? ==> text == "Sin Respuesta"
  {
    if respuesta == Literal(Attend) then "Asistirá"
    else if respuesta == Literal(Decline) then "No Asistirá"
    else if respuesta == Literal(Delegate) then "Enviará Representante"
    else "Sin Respuesta"
  }

  /** `getRespuestaClass`: the same three tests, with CSS class names. */
  function RespuestaClass(respuesta: string): (cls: string)
    ensures KindOf(respuesta).Some? ==> cls == KindClass(KindOf(respuesta).value)
    ensures KindOf(respuesta).None? ==> cls == "sin-respuesta"
  {
    if respuesta == Literal(Attend) then "asistira"
    else if respuesta == Literal(Decline) then "no-asistira"
    else if respuesta == Literal(Delegate) then "representante"
    else "sin-respuesta"
  }

  /** The three answers get pairwise distinct labels and classes, none of
      them the default. */
  lemma BadgesDistinct(a: Kind, b: Kind)
    ensures RespuestaLabel(Literal(a)) == RespuestaLabel(Literal(b)) <==> a == b
    ensures RespuestaClass(Literal(a)) == RespuestaClass(Literal(b)) <==> a == b
    ensures RespuestaLabel(Literal(a)) != "Sin Respuesta"
    ensures RespuestaClass(Literal(a)) != "sin-respuesta"
  {
    KindOfLiteral(a);
    KindOfLiteral(b);
  }

  /** The placeholder of a member without a response is not one of the
      stored literals, so it gets the default badge. */
  lemma PlaceholderGetsDefault()
    ensures RespuestaLabel(NoResponse) == "Sin Respuesta"
    ensures RespuestaClass(NoResponse) == "sin-respuesta"
  {
  }

  /** Label and class always agree: each determines the other. */
  lemma LabelDeterminesClass(x: string, y: string)
    ensures RespuestaLabel(x) == RespuestaLabel(y) <==> RespuestaClass(x) == RespuestaClass(y)
  {
  }

  // ---------------------------------------------------------------------
  // Summary counters

  /** The six numbers of the summary cards. */
  datatype Stats = Stats(
    confirmados: int,
    representantes: int,
    noAsisten: int,
    sinRespuesta: int,
    totalPersonas: int,
    totalAdicionales: int)

  /** A response row carries exactly the literal of answer `k`. */
  predicate Answers(r: Response, k: Kind) {
    r.respuesta == Some(Literal(k))
  }

  /** The row brings people: it attends or sends a representative. */
  predicate Comes(r: Response) {
    Answers(r, Attend) || Answers(r, Delegate)
  }

  /** The number of rows answering `k`. */
  function Count(rs: seq<Response>, k: Kind): (n: nat)
    ensures n <= |rs|
  {
    if |rs| == 0 then 0
    else Count(rs[..|rs| - 1], k) + (if Answers(rs[|rs| - 1], k) then 1 else 0)
  }

  /** The companions (`adicionales || 0`) of the rows that come. */
  function Extras(rs: seq<Response>): int {
    if |rs| == 0 then 0
    else Extras(rs[..|rs| - 1]) + (if Comes(rs[|rs| - 1]) then rs[|rs| - 1].adicionales.GetOr(0) else 0)
  }

  /** The people expected: each row that comes, with its companions. */
  function People(rs: seq<Response>): int {
    if |rs| == 0 then 0
    else People(rs[..|rs| - 1]) + (if Comes(rs[|rs| - 1]) then 1 + rs[|rs| - 1].adicionales.GetOr(0) else 0)
  }

  /** The reference definition of the summary: each counter on its own. */
  function StatsOf(socios: seq<Member>, respuestas: seq<Response>): Stats {
    Stats(
      Count(respuestas, Attend),
      Count(respuestas, Delegate),
      Count(respuestas, Decline),
      |socios| - |respuestas|,
      People(respuestas),
      Extras(respuestas))
  }

  /** `calculateStats`: one pass over the responses with an if/else-if chain
      on the answer literal; the "no response" card is a difference of list
      lengths. */
  method CalculateStats(socios: seq<Member>, respuestas: seq<Response>) returns (st: Stats)
    ensures st == StatsOf(socios, respuestas)
  {
    var confirmados, representantes, noAsisten, totalPersonas, totalAdicionales := 0, 0, 0, 0, 0;
    var i := 0;
    while i < |respuestas|
      invariant 0 <= i <= |respuestas|
      invariant confirmados == Count(respuestas[..i], Attend)
      invariant representantes == Count(respuestas[..i], Delegate)
      invariant noAsisten == Count(respuestas[..i], Decline)
      invariant totalPersonas == People(respuestas[..i])
      invariant totalAdicionales == Extras(respuestas[..i])
    {
      var resp := respuestas[i];
      assert respuestas[..i + 1][..i] == respuestas[..i];
      if resp.respuesta == Some(Literal(Attend)) {
        confirmados := confirmados + 1;
        totalPersonas := totalPersonas + 1 + resp.adicionales.GetOr(0);
        totalAdicionales := totalAdicionales + resp.adicionales.GetOr(0);
      } else if resp.respuesta == Some(Literal(Delegate)) {
        representantes := representantes + 1;
        totalPersonas := totalPersonas + 1 + resp.adicionales.GetOr(0);
        totalAdicionales := totalAdicionales + resp.adicionales.GetOr(0);
      } else if resp.respuesta == Some(Literal(Decline)) {
        noAsisten := noAsisten + 1;
      }
      i := i + 1;
    }
    assert respuestas[..|respuestas|] == respuestas;
    st := Stats(confirmados, representantes, noAsisten, |socios| - |respuestas|, totalPersonas, totalAdicionales);
  }

  /** Each row lands in at most one of the three answer counters; rows with
      any other literal land in none. */
  lemma {:induction false} CountsBounded(rs: seq<Response>)
    ensures Count(rs, Attend) + Count(rs, Delegate) + Count(rs, Decline) <= |rs|
  {
    if |rs| > 0 {
      CountsBounded(rs[..|rs| - 1]);
    }
  }

  /** The people total is the attending rows, the representatives and all
      their companions. */
  lemma {:induction false} PeopleSplits(rs: seq<Response>)
    ensures People(rs) == Count(rs, Attend) + Count(rs, Delegate) + Extras(rs)
  {
    if |rs| > 0 {
      PeopleSplits(rs[..|rs| - 1]);
    }
  }

  /** The summary invariant the cards keep. */
  lemma StatsTotals(socios: seq<Member>, respuestas: seq<Response>)
    ensures var st := StatsOf(socios, respuestas);
            && st.totalPersonas == st.confirmados + st.representantes + st.totalAdicionales
            && st.confirmados + st.representantes + st.noAsisten <= |respuestas|
            && st.sinRespuesta == |socios| - |respuestas|
  {
    PeopleSplits(respuestas);
    CountsBounded(respuestas);
  }

  /** One more refusal raises only the refusal counter (and lowers the
      length difference); one more row with an unknown literal changes no
      answer counter and no total. */
  lemma AppendRowEffect(socios: seq<Member>, rs: seq<Response>, r: Response)
    ensures var before := StatsOf(socios, rs);
            var after := StatsOf(socios, rs + [r]);
            && after.sinRespuesta == before.sinRespuesta - 1
            && (Answers(r, Decline) ==>
                  after == before.(noAsisten := before.noAsisten + 1, sinRespuesta := before.sinRespuesta - 1))
            && (KindOf(r.respuesta.GetOr("")).None? ==>
                  after == before.(sinRespuesta := before.sinRespuesta - 1))
  {
    assert (rs + [r])[..|rs + [r]| - 1] == rs;
  }

  /** The "no response" card counts rows, not members: with two responses
      of one member it shows -1 although that member has answered. */
  lemma NoResponseCardCanBeNegative(m: Member, a: Response, b: Response)
    requires a.idsocio == m.idsocio && b.idsocio == m.idsocio
    ensures StatsOf([m], [a, b]).sinRespuesta == -1
    ensures JoinRows([m], [a, b])[0].totalPersonas == 1 + b.adicionales.GetOr(0)
  {
    JoinUsesLastResponse([m], [a, b], 0);
    var j :| 0 <= j < 2 && LastMatch([a, b], m.idsocio, j);
    assert j == 1;
  }

  // ---------------------------------------------------------------------
  // The member/response join

  /** Index `j` holds the last response row of member `id`. */
  predicate LastMatch(rs: seq<Response>, id: int, j: int) {
    && 0 <= j < |rs|
    && rs[j].idsocio == id
    && forall k :: j < k < |rs| ==> rs[k].idsocio != id
  }

  /** The `respuestasMap` object: every row written in turn under its member
      id, so a later row overwrites an earlier one. */
  function BuildMap(rs: seq<Response>): map<int, Response> {
    if |rs| == 0 then map[]
    else BuildMap(rs[..|rs| - 1])[rs[|rs| - 1].idsocio := rs[|rs| - 1]]
  }

  /** The map holds a member id exactly when some row carries it, and then
      it holds that member's last row. */
  lemma {:induction false} BuildMapLastWins(rs: seq<Response>, id: int)
    ensures id in BuildMap(rs) <==> exists j :: 0 <= j < |rs| && rs[j].idsocio == id
    ensures id in BuildMap(rs) ==> exists j :: LastMatch(rs, id, j) && BuildMap(rs)[id] == rs[j]
  {
    if |rs| > 0 {
      var prefix := rs[..|rs| - 1];
      var last := rs[|rs| - 1];
      BuildMapLastWins(prefix, id);
      if last.idsocio == id {
        assert LastMatch(rs, id, |rs| - 1);
      } else {
        if id in BuildMap(prefix) {
          var j :| LastMatch(prefix, id, j) && BuildMap(prefix)[id] == prefix[j];
          assert LastMatch(rs, id, j);
        }
        if exists j :: 0 <= j < |rs| && rs[j].idsocio == id {
          var j :| 0 <= j < |rs| && rs[j].idsocio == id;
          assert prefix[j].idsocio == id;
        }
      }
    }
  }

  /** One dashboard row: the member's own fields and what the join adds. */
  datatype TableRow = TableRow(
    socio: Member,
    respuesta: string,
    adicionales: int,
    totalPersonas: int,
    fechaRespuesta: Option<string>)

  /** The row of member `m`, given its response if the map has one. */
  function RowFor(m: Member, found: Option<Response>): (row: TableRow)
    ensures row.socio == m
    ensures found.None? ==> row == TableRow(m, NoResponse, 0, 0, None)
    ensures found.Some? ==> row.totalPersonas == 1 + row.adicionales
    ensures found.Some? ==>
              && row.respuesta == OrElse(found.value.respuesta, NoResponse)
              && row.adicionales == found.value.adicionales.GetOr(0)
              && row.fechaRespuesta == FirstTruthy(found.value.fechaconfirmacion, found.value.dateCreated)
  {
    match found
    case None => TableRow(m, NoResponse, 0, 0, None)
    case Some(r) =>
      TableRow(
        m,
        OrElse(r.respuesta, NoResponse),
        r.adicionales.GetOr(0),
        1 + r.adicionales.GetOr(0),
        FirstTruthy(r.fechaconfirmacion, r.dateCreated))
  }

  /** The table: one row per member, in member order. */
  function JoinRows(socios: seq<Member>, respuestas: seq<Response>): (rows: seq<TableRow>)
    ensures |rows| == |socios|
    ensures forall i :: 0 <= i < |socios| ==> rows[i].socio == socios[i]
  {
    var m := BuildMap(respuestas);
    seq(|socios|, i requires 0 <= i < |socios| =>
      RowFor(socios[i], if socios[i].idsocio in m then Some(m[socios[i].idsocio]) else None))
  }

  /** Each row reflects the member's last response row, or the placeholder
      when the member has none. */
  lemma JoinUsesLastResponse(socios: seq<Member>, respuestas: seq<Response>, i: nat)
    requires i < |socios|
    ensures (forall j :: 0 <= j < |respuestas| ==> respuestas[j].idsocio != socios[i].idsocio) ==>
              JoinRows(socios, respuestas)[i] == TableRow(socios[i], NoResponse, 0, 0, None)
    ensures (exists j :: 0 <= j < |respuestas| && respuestas[j].idsocio == socios[i].idsocio) ==>
              exists j :: LastMatch(respuestas, socios[i].idsocio, j)
                && JoinRows(socios, respuestas)[i] == RowFor(socios[i], Some(respuestas[j]))
  {
    BuildMapLastWins(respuestas, socios[i].idsocio);
  }

  // ---------------------------------------------------------------------
  // Filters

  /** The rows `keep` accepts, in their order. */
  function Select(rows: seq<TableRow>, keep: TableRow -> bool): (out: seq<TableRow>)
    ensures |out| <= |rows|
    ensures forall x :: x in out <==> x in rows && keep(x)
  {
    if |rows| == 0 then []
    else (if keep(rows[0]) then [rows[0]] else []) + Select(rows[1..], keep)
  }

  /** Filtering keeps every accepted row as often as it occurs. */
  lemma {:induction false} SelectCounts(rows: seq<TableRow>, keep: TableRow -> bool, x: TableRow)
    ensures multiset(Select(rows, keep))[x] == (if keep(x) then multiset(rows)[x] else 0)
  {
    if |rows| > 0 {
      assert rows == [rows[0]] + rows[1..];
      SelectCounts(rows[1..], keep, x);
    }
  }

  /** `a` is `b` with some elements dropped. */
  predicate SubsequenceOf(a: seq<TableRow>, b: seq<TableRow>)
    decreases |b|
  {
    if |a| == 0 then true
    else if |b| == 0 then false
    else if a[0] == b[0] then SubsequenceOf(a[1..], b[1..])
    else SubsequenceOf(a, b[1..])
  }

  lemma {:induction false} SelectIsSubsequence(rows: seq<TableRow>, keep: TableRow -> bool)
    ensures SubsequenceOf(Select(rows, keep), rows)
    decreases |rows|
  {
    if |rows| > 0 {
      SelectIsSubsequence(rows[1..], keep);
      var out := Select(rows, keep);
      if keep(rows[0]) {
        assert out[1..] == Select(rows[1..], keep);
      } else if |out| > 0 {
        assert out == Select(rows[1..], keep);
        assert out[0] in out;
        assert out[0] != rows[0];
      }
    }
  }

  /** A filter that accepts every row is the identity. */
  lemma {:induction false} SelectAll(rows: seq<TableRow>, keep: TableRow -> bool)
    requires forall i :: 0 <= i < |rows| ==> keep(rows[i])
    ensures Select(rows, keep) == rows
    decreases |rows|
  {
    if |rows| > 0 {
      SelectAll(rows[1..], keep);
    }
  }

  /** Two filters in a row keep what both accept. */
  lemma {:induction false} SelectAnd(rows: seq<TableRow>, p: TableRow -> bool, q: TableRow -> bool, both: TableRow -> bool)
    requires forall x :: both(x) == (p(x) && q(x))
    ensures Select(Select(rows, p), q) == Select(rows, both)
    decreases |rows|
  {
    if |rows| > 0 {
      var x := rows[0];
      var rest := rows[1..];
      SelectAnd(rest, p, q, both);
      if p(x) {
        assert Select(rows, p) == [x] + Select(rest, p);
        SelectCons(x, Select(rest, p), q);
      } else {
        assert Select(rows, p) == Select(rest, p);
      }
    }
  }

  /** Two filters can be applied in either order. */
  lemma SelectCommutes(rows: seq<TableRow>, p: TableRow -> bool, q: TableRow -> bool)
    ensures Select(Select(rows, p), q) == Select(Select(rows, q), p)
  {
    var both := (x: TableRow) => p(x) && q(x);
    SelectAnd(rows, p, q, both);
    SelectAnd(rows, q, p, both);
  }

  /** `Select` on a row prepended to a list. */
  lemma SelectCons(x: TableRow, rest: seq<TableRow>, keep: TableRow -> bool)
    ensures Select([x] + rest, keep) == (if keep(x) then [x] else []) + Select(rest, keep)
  {
    assert ([x] + rest)[1..] == rest;
  }

  /** The answer dropdown: exact equality with the selected literal. */
  predicate MatchesKind(filtro: string, row: TableRow) {
    row.respuesta == filtro
  }

  /** The search box: the lower-cased query inside the lower-cased name, or
      inside the ID number as stored. */
  predicate MatchesSearch(q: string, row: TableRow) {
    Contains(ToLower(row.socio.nombre), q) || Contains(row.socio.cedula, q)
  }

  /** The answer filter; an empty selection means "all". */
  function FilterKind(rows: seq<TableRow>, filtro: string): (out: seq<TableRow>)
    ensures filtro == "" ==> out == rows
    ensures filtro != "" ==> forall x :: x in out <==> x in rows && MatchesKind(filtro, x)
  {
    if filtro == "" then rows else Select(rows, x => MatchesKind(filtro, x))
  }

  /** The search filter on the lower-cased query; an empty query means "all". */
  function FilterSearch(rows: seq<TableRow>, busqueda: string): (out: seq<TableRow>)
    ensures busqueda == "" ==> out == rows
    ensures busqueda != "" ==> forall x :: x in out <==> x in rows && MatchesSearch(ToLower(busqueda), x)
  {
    var q := ToLower(busqueda);
    if q == "" then rows else Select(rows, x => MatchesSearch(q, x))
  }

  /** The table on screen: the join, then the answer filter, then the search. */
  function ApplyFilters(rows: seq<TableRow>, filtro: string, busqueda: string): seq<TableRow> {
    FilterSearch(FilterKind(rows, filtro), busqueda)
  }

  /** What the screen shows: a subsequence of the join whose rows pass both
      filters (an empty filter passing everything), and nothing else. */
  lemma FiltersSelect(rows: seq<TableRow>, filtro: string, busqueda: string)
    ensures SubsequenceOf(ApplyFilters(rows, filtro, busqueda), rows)
    ensures forall x :: x in ApplyFilters(rows, filtro, busqueda) <==>
              && x in rows
              && (filtro == "" || MatchesKind(filtro, x))
              && (busqueda == "" || MatchesSearch(ToLower(busqueda), x))
  {
    var q := ToLower(busqueda);
    var kp := (x: TableRow) => MatchesKind(filtro, x);
    var sp := (x: TableRow) => MatchesSearch(q, x);
    var all := (x: TableRow) => true;
    var p := if filtro == "" then all else kp;
    var r := if q == "" then all else sp;
    SelectAll(rows, all);
    SelectAll(Select(rows, p), all);
    assert FilterKind(rows, filtro) == Select(rows, p);
    assert ApplyFilters(rows, filtro, busqueda) == Select(Select(rows, p), r);
    var both := (x: TableRow) => p(x) && r(x);
    SelectAnd(rows, p, r, both);
    SelectIsSubsequence(rows, both);
  }

  /** The answer filter and the search can be applied in either order. */
  lemma FiltersCommute(rows: seq<TableRow>, filtro: string, busqueda: string)
    ensures FilterSearch(FilterKind(rows, filtro), busqueda) == FilterKind(FilterSearch(rows, busqueda), filtro)
  {
    var q := ToLower(busqueda);
    if filtro != "" && q != "" {
      SelectCommutes(rows, x => MatchesKind(filtro, x), x => MatchesSearch(q, x));
    }
  }

  // ---------------------------------------------------------------------
  // Session

  /** The dashboard's global state (`appState`); the loading flag is left out. */
  datatype DashboardState = DashboardState(
    user: Option<string>,
    token: Option<string>,
    socios: seq<Member>,
    respuestas: seq<Response>)

  const SignedOut := DashboardState(None, None, [], [])

  /** What a list fetch returned. */
  datatype Fetch<T> = Fetched(data: seq<T>) | FetchFailed(error: string)

  /** The state after a refresh and the error banners it raised, in order. */
  datatype Loaded = Loaded(next: DashboardState, errors: seq<string>)

  /** The error banner of a failed list fetch. */
  function LoadError(prefix: string, error: string): string {
    prefix + error
  }

  /** `loadData`: each list is replaced only by its own successful fetch;
      a failed fetch keeps the previous list and raises a banner. */
  function LoadData(s: DashboardState, socios: Fetch<Member>, respuestas: Fetch<Response>): (r: Loaded)
    ensures r.next.user == s.user && r.next.token == s.token
    ensures r.next.socios == (if socios.Fetched? then socios.data else s.socios)
    ensures r.next.respuestas == (if respuestas.Fetched? then respuestas.data else s.respuestas)
    ensures |r.errors| == (if socios.Fetched? then 0 else 1) + (if respuestas.Fetched? then 0 else 1)
  {
    var s1 := if socios.Fetched? then s.(socios := socios.data) else s;
    var e1 := if socios.Fetched? then [] else [LoadError("Error al cargar socios: ", socios.error)];
    var s2 := if respuestas.Fetched? then s1.(respuestas := respuestas.data) else s1;
    var e2 := if respuestas.Fetched? then [] else [LoadError("Error al cargar respuestas: ", respuestas.error)];
    Loaded(s2, e1 + e2)
  }

  /** Refreshing twice with the same answers is refreshing once; a refresh
      where both fetches fail changes nothing. */
  lemma LoadDataSettles(s: DashboardState, socios: Fetch<Member>, respuestas: Fetch<Response>)
    ensures LoadData(LoadData(s, socios, respuestas).next, socios, respuestas).next == LoadData(s, socios, respuestas).next
    ensures socios.FetchFailed? && respuestas.FetchFailed? ==> LoadData(s, socios, respuestas).next == s
  {
  }

  /** `logout`: user and token cleared, both lists emptied. */
  function Logout(s: DashboardState): (r: DashboardState)
    ensures r.user.None? && r.token.None?
    ensures r.socios == [] && r.respuestas == []
  {
    s.(user := None, token := None, socios := [], respuestas := [])
  }

  /** What the login request returned. */
  datatype LoginResult = LoggedIn(token: string, user: Option<string>) | LoginFailed(error: string)

  /** `handleLogin`: a successful login stores token and user and then
      loads both lists; a failed one only shows its error. */
  function Login(s: DashboardState, result: LoginResult, socios: Fetch<Member>, respuestas: Fetch<Response>): (r: Loaded)
    ensures result.LoginFailed? ==> r == Loaded(s, [result.error])
    ensures result.LoggedIn? ==> r.next.token == Some(result.token) && r.next.user == result.user
    ensures result.LoggedIn? ==>
              r.next.socios == (if socios.Fetched? then socios.data else s.socios)
              && r.next.respuestas == (if respuestas.Fetched? then respuestas.data else s.respuestas)
              && r.errors == LoadData(s, socios, respuestas).errors
  {
    match result
    case LoginFailed(error) => Loaded(s, [error])
    case LoggedIn(token, user) => LoadData(s.(token := Some(token), user := user), socios, respuestas)
  }

  /** The 30-second timer: it refreshes only while a token is held. */
  function RefreshTick(s: DashboardState, socios: Fetch<Member>, respuestas: Fetch<Response>): (r: Loaded)
    ensures OrElse(s.token, "") != "" ==> r == LoadData(s, socios, respuestas)
    ensures OrElse(s.token, "") == "" ==> r == Loaded(s, [])
  {
    if s.token.Some? && s.token.value != "" then LoadData(s, socios, respuestas) else Loaded(s, [])
  }

  /** After logging out the timer loads nothing, whatever the fetches would
      return, and logging out again changes nothing. */
  lemma LogoutStopsRefresh(s: DashboardState, socios: Fetch<Member>, respuestas: Fetch<Response>)
    ensures Logout(s) == SignedOut
    ensures RefreshTick(Logout(s), socios, respuestas) == Loaded(SignedOut, [])
    ensures Logout(Logout(s)) == Logout(s)
  {
  }

  /** The summary of a signed-out dashboard is all zeros. */
  lemma SignedOutStats()
    ensures StatsOf(SignedOut.socios, SignedOut.respuestas) == Stats(0, 0, 0, 0, 0, 0)
  {
  }

  // ---------------------------------------------------------------------
  // Export

  /** `handleExport`: the rows handed to the PDF builder, built exactly like
      the table but ignoring both filters. */
  function ExportRows(s: DashboardState): (rows: seq<TableRow>)
    ensures |rows| == |s.socios|
  {
    JoinRows(s.socios, s.respuestas)
  }

  /** The export is the on-screen table with both filters empty. */
  lemma ExportIsUnfilteredTable(s: DashboardState)
    ensures ExportRows(s) == ApplyFilters(JoinRows(s.socios, s.respuestas), "", "")
  {
  }
}

=== FILE: Divergence.dfy ===
/** The two national-ID checks of the project disagree: the wizard strips
    non-digits and accepts 7 to 11 digits, the configuration's validator
    takes the input as typed and accepts exactly 10 or 11 digits. */
module Divergence {
  import opened Base
  import Form
  import Config

  /** Every ID the configuration's validator accepts, the wizard accepts too. */
  lemma ConfigValidImpliesWizardValid(s: string)
    requires Config.ValidateCedula(Some(s)) == Config.Valid
    ensures Form.ValidateCedula(s)
  {
    Config.ShippedValidatorExact(s);
  }

  /** A 7- to 9-digit ID passes the wizard and fails the configuration's
      length check. */
  lemma ShortIdSplitsValidators(s: string)
    requires AllDigits(s) && 7 <= |s| <= 9
    ensures Form.ValidateCedula(s)
    ensures Config.ValidateCedula(Some(s)) == Config.Invalid(Config.BadLength(Config.Num(10), Config.Num(11)))
  {
    Config.ShippedValidatorExact(s);
  }

  /** Digits followed by separators (a dash, a space, a dot) pass the wizard
      and never pass the configuration's validator. */
  lemma SeparatorsSplitValidators(digits: string, junk: string)
    requires AllDigits(digits) && 7 <= |digits| <= 11
    requires junk != "" && Form.FormatCedula(junk) == ""
    ensures Form.ValidateCedula(digits + junk)
    ensures Config.ValidateCedula(Some(digits + junk)) != Config.Valid
  {
    Form.FormatCedulaAppend(digits, junk);
    assert Form.FormatCedula(digits + junk) == digits + "";
    assert digits + "" == digits;
    JunkIsNotDigits(digits, junk);
    Config.ShippedValidatorExact(digits + junk);
  }

  /** A non-empty tail the stripping erases makes the whole input non-numeric. */
  lemma JunkIsNotDigits(digits: string, junk: string)
    requires junk != "" && Form.FormatCedula(junk) == ""
    ensures !AllDigits(digits + junk)
  {
    if AllDigits(digits + junk) {
      forall i | 0 <= i < |junk| ensures IsDigit(junk[i]) {
        assert junk[i] == (digits + junk)[|digits| + i];
      }
      assert false;
    }
  }

  /** A concrete ID on which they disagree: seven digits. */
  lemma SevenDigitWitness()
    ensures Form.ValidateCedula("1234567")
    ensures Config.ValidateCedula(Some("1234567")).Invalid?
  {
    assert AllDigits("1234567");
    ShortIdSplitsValidators("1234567");
  }
}

=== FILE: Form.dfy ===
/** The public RSVP wizard: the national-ID helpers, the companion-count
    normaliser, and the wizard's state with one transition per event handler.
    Backend answers arrive as fields of the events; the transitions report
    the backend calls they issue and the message they show. */
module Form {
  import opened Base
  import opened Records

  // ---------------------------------------------------------------------
  // National-ID helpers (`utils.formatCedula`, `utils.validateCedula`)

  /** `cedula.replace(/\D/g, '')`: the digits of `s`, in order. */
  function FormatCedula(s: string): (r: string)
    ensures AllDigits(r)
    ensures |r| <= |s|
    ensures AllDigits(s) ==> r == s
    decreases |s|
  {
    if |s| == 0 then ""
    else
      var tail := FormatCedula(s[1..]);
      assert AllDigits(s) ==> AllDigits(s[1..]) by {
        if AllDigits(s) {
          forall i | 0 <= i < |s[1..]| ensures IsDigit(s[1..][i]) {
            assert s[1..][i] == s[i + 1];
          }
        }
      }
      (if IsDigit(s[0]) then [s[0]] else []) + tail
  }

  /** Stripping distributes over concatenation, so together with its effect
      on one character it fixes `FormatCedula` completely. */
  lemma {:induction false} FormatCedulaAppend(a: string, b: string)
    ensures FormatCedula(a + b) == FormatCedula(a) + FormatCedula(b)
    ensures |a| == 1 ==> FormatCedula(a) == (if IsDigit(a[0]) then a else "")
    decreases |a|
  {
    if |a| > 0 {
      assert (a + b)[0] == a[0];
      assert (a + b)[1..] == a[1..] + b;
      FormatCedulaAppend(a[1..], b);
      if |a| == 1 {
        assert a[1..] == "";
      }
    } else {
      assert a + b == b;
    }
  }

  /** Exactly the digits survive, each as often as it occurs in the input. */
  lemma {:induction false} FormatCedulaCounts(s: string, c: char)
    ensures multiset(FormatCedula(s))[c] == (if IsDigit(c) then multiset(s)[c] else 0)
    decreases |s|
  {
    if |s| > 0 {
      FormatCedulaCounts(s[1..], c);
      assert s == [s[0]] + s[1..];
      assert multiset(s) == multiset([s[0]]) + multiset(s[1..]);
    }
  }

  lemma FormatCedulaIdempotent(s: string)
    ensures FormatCedula(FormatCedula(s)) == FormatCedula(s)
  {
  }

  /** The wizard's own check: 7 to 11 digits once the non-digits are gone. */
  predicate ValidateCedula(s: string) {
    7 <= |FormatCedula(s)| <= 11
  }

  /** Non-digit characters never decide the verdict: only the digits count,
      so separators, spaces and letters are tolerated. */
  lemma ValidateIgnoresNonDigits(s: string, junk: string)
    requires FormatCedula(junk) == ""
    ensures ValidateCedula(s) == ValidateCedula(FormatCedula(s))
    ensures ValidateCedula(s + junk) == ValidateCedula(s)
    ensures ValidateCedula(junk + s) == ValidateCedula(s)
    ensures AllDigits(s) ==> (ValidateCedula(s) <==> 7 <= |s| <= 11)
  {
    FormatCedulaAppend(s, junk);
    FormatCedulaAppend(junk, s);
    assert FormatCedula(s) + "" == FormatCedula(s);
    assert "" + FormatCedula(s) == FormatCedula(s);
  }

  // ---------------------------------------------------------------------
  // Live input normalisers (`handlers.formatCedulaInput`,
  // `handlers.validateAdicionales`)

  const MaxCedulaDigits := 11

  /** The text left in the ID field after each keystroke: its digits, cut to
      the first eleven. */
  function FormatCedulaInput(s: string): (r: string)
    ensures AllDigits(r)
    ensures |r| == if |FormatCedula(s)| > MaxCedulaDigits then MaxCedulaDigits else |FormatCedula(s)|
    ensures r <= FormatCedula(s)
  {
    var value := FormatCedula(s);
    if |value| > MaxCedulaDigits then value[..MaxCedulaDigits] else value
  }

  /** The mask is idempotent, leaves short digit strings alone, and turns any
      entry with at least seven digits into one the wizard accepts. */
  lemma FormatCedulaInputStable(s: string)
    ensures FormatCedulaInput(FormatCedulaInput(s)) == FormatCedulaInput(s)
    ensures AllDigits(s) && |s| <= MaxCedulaDigits ==> FormatCedulaInput(s) == s
    ensures |FormatCedula(s)| >= 7 ==> ValidateCedula(FormatCedulaInput(s))
  {
  }

  const MaxAdicionales := 10

  /** The correction written back into the companion-count field, given
      `parseInt` of its text (None for NaN); None leaves the text as typed. */
  function ValidateAdicionales(parsed: Option<int>): (r: Option<int>)
    ensures r.None? <==> parsed.Some? && 0 <= parsed.value <= MaxAdicionales
    ensures r.Some? ==> 0 <= r.value <= MaxAdicionales
    ensures (parsed.None? || parsed.value < 0) ==> r == Some(0)
    ensures parsed.Some? && parsed.value > MaxAdicionales ==> r == Some(MaxAdicionales)
  {
    if parsed.None? || parsed.value < 0 then Some(0)
    else if parsed.value > MaxAdicionales then Some(MaxAdicionales)
    else None
  }

  /** The count the field holds after the correction. */
  function FieldCount(parsed: Option<int>): int {
    match ValidateAdicionales(parsed)
    case Some(v) => v
    case None => parsed.value
  }

  /** After the correction the field always holds a count in [0, 10], which
      the normaliser then leaves alone. */
  lemma ValidateAdicionalesSettles(parsed: Option<int>)
    ensures 0 <= FieldCount(parsed) <= MaxAdicionales
    ensures ValidateAdicionales(Some(FieldCount(parsed))) == None
    ensures parsed.Some? && 0 <= parsed.value <= MaxAdicionales ==> FieldCount(parsed) == parsed.value
  {
  }

  // ---------------------------------------------------------------------
  // Wizard state (`formState`)

  datatype Step = Search | Invitation | Accompanied | Additional | Confirmation

  /** `formState`, with `respuestaExistente` and `editandoRespuesta`
      (initially undefined) read as None and false. */
  datatype WizardState = WizardState(
    currentStep: Step,
    socio: Option<Member>,
    respuestaSeleccionada: Option<string>,
    adicionalesCount: int,
    respuestaExistente: Option<Response>,
    editandoRespuesta: bool)

  const Initial := WizardState(Search, None, None, 0, None, false)

  /** What the member lookup returned: the matching rows, or an error message
      (timeout, connectivity, permission or server). */
  datatype LookupOutcome = Found(rows: seq<Member>) | LookupFailed(error: string)

  /** What the existing-response probe received; the adapter turns every
      failure into an empty list. */
  datatype ProbeOutcome = ProbeRows(rows: seq<Response>) | ProbeFailed

  /** What create or update returned. */
  datatype SubmitOutcome = Saved | SaveFailed(error: string)

  /** The body sent to create or update. */
  datatype ResponseData = ResponseData(idsocio: int, respuesta: string, adicionales: int, fechaconfirmacion: string)

  /** The backend calls a handler issues, in order. */
  datatype Call =
    | FindMember(cedula: string)
    | FindExisting(idsocio: int)
    | CreateResponse(data: ResponseData)
    | UpdateResponse(id: int, data: ResponseData)
  {
    predicate IsSubmission() {
      CreateResponse? || UpdateResponse?
    }
  }

  /** What the visitor sees besides the current step. `Confirmed(true)` is the
      "updated" title, `Confirmed(false)` the "registered" one; `TypeError` is
      a handler that throws on a missing member. */
  datatype Notice = Quiet | ShowError(message: string) | Confirmed(updated: bool) | TypeError

  datatype Outcome = Outcome(next: WizardState, calls: seq<Call>, notice: Notice)

  const InvalidIdMessage := "Por favor ingresa un número de cédula válido (7-11 dígitos)"
  const NotFoundMessage := "No se encontró ningún socio con esa cédula. Verifica que el número sea correcto."
  const InvalidCountMessage := "El número de personas adicionales debe estar entre 0 y 10"
  const InvalidChoiceMessage := "Error: Respuesta no válida"

  /** The rows the probe hands to the handler: a failure reads as none. */
  function ProbeData(p: ProbeOutcome): (rows: seq<Response>)
    ensures p.ProbeFailed? ==> rows == []
    ensures p.ProbeRows? ==> rows == p.rows
  {
    match p
    case ProbeRows(rows) => rows
    case ProbeFailed => []
  }

  /** The internal choice strings of the three buttons. */
  function SelectionKind(sel: Option<string>): (k: Option<Kind>)
    ensures k == Some(Attend) <==> sel == Some("asistire")
    ensures k == Some(Decline) <==> sel == Some("no_asistire")
    ensures k == Some(Delegate) <==> sel == Some("representante")
  {
    if sel == Some("asistire") then Some(Attend)
    else if sel == Some("no_asistire") then Some(Decline)
    else if sel == Some("representante") then Some(Delegate)
    else None
  }

  /** An update is issued exactly when an existing response is on record and
      the visitor asked to change it. */
  predicate IsUpdate(s: WizardState) {
    s.respuestaExistente.Some? && s.editandoRespuesta
  }

  // ---------------------------------------------------------------------
  // Handlers

  /** `handlers.buscarSocio`: validate, look the member up, probe for an
      earlier response, show the invitation. */
  function BuscarSocio(s: WizardState, input: string, lookup: LookupOutcome, probe: ProbeOutcome): (o: Outcome)
    ensures !ValidateCedula(input) ==> o == Outcome(s, [], ShowError(InvalidIdMessage))
    ensures ValidateCedula(input) ==> |o.calls| >= 1 && o.calls[0] == FindMember(FormatCedula(input))
    ensures ValidateCedula(input) && lookup.LookupFailed? ==>
              o == Outcome(s, [FindMember(FormatCedula(input))], ShowError(lookup.error))
    ensures ValidateCedula(input) && lookup == Found([]) ==>
              o == Outcome(s, [FindMember(FormatCedula(input))], ShowError(NotFoundMessage))
    ensures ValidateCedula(input) && lookup.Found? && |lookup.rows| > 0 ==>
              var m := lookup.rows[0];
              && o.calls == [FindMember(FormatCedula(input)), FindExisting(m.idsocio)]
              && o.notice == Quiet
              && o.next.currentStep == Invitation
              && o.next.socio == Some(m)
              && (|ProbeData(probe)| > 0 ==> o.next.respuestaExistente == Some(ProbeData(probe)[0]))
              && (|ProbeData(probe)| == 0 ==> o.next.respuestaExistente == None)
              && o.next.respuestaSeleccionada == s.respuestaSeleccionada
              && o.next.adicionalesCount == s.adicionalesCount
              && o.next.editandoRespuesta == s.editandoRespuesta
  {
    if !ValidateCedula(input) then
      Outcome(s, [], ShowError(InvalidIdMessage))
    else
      var cedulaLimpia := FormatCedula(input);
      match lookup
      case LookupFailed(error) => Outcome(s, [FindMember(cedulaLimpia)], ShowError(error))
      case Found(rows) =>
        if |rows| == 0 then
          Outcome(s, [FindMember(cedulaLimpia)], ShowError(NotFoundMessage))
        else
          var data := ProbeData(probe);
          var existente := if |data| > 0 then Some(data[0]) else None;
          Outcome(s.(socio := Some(rows[0]), respuestaExistente := existente, currentStep := Invitation),
                  [FindMember(cedulaLimpia), FindExisting(rows[0].idsocio)],
                  Quiet)
  }

  /** `handlers.cambiarRespuesta`: restore the choice buttons (which reads the
      member's name) and enter edit mode. */
  function CambiarRespuesta(s: WizardState): (o: Outcome)
    ensures s.socio.Some? ==> o == Outcome(s.(editandoRespuesta := true), [], Quiet)
    ensures s.socio.None? ==> o == Outcome(s, [], TypeError)
  {
    if s.socio.None? then Outcome(s, [], TypeError)
    else Outcome(s.(editandoRespuesta := true), [], Quiet)
  }

  /** `handlers.finalizarRespuesta`: map the choice to its backend literal,
      create or update, and show the confirmation only on success. */
  function FinalizarRespuesta(s: WizardState, submit: SubmitOutcome, now: string): (o: Outcome)
    ensures SelectionKind(s.respuestaSeleccionada).None? ==>
              o == Outcome(s, [], ShowError(InvalidChoiceMessage))
    ensures SelectionKind(s.respuestaSeleccionada).Some? && s.socio.None? ==>
              o == Outcome(s, [], TypeError)
    ensures SelectionKind(s.respuestaSeleccionada).Some? && s.socio.Some? ==>
              var data := ResponseData(s.socio.value.idsocio,
                                       Literal(SelectionKind(s.respuestaSeleccionada).value),
                                       s.adicionalesCount, now);
              && |o.calls| == 1
              && (IsUpdate(s) ==> o.calls[0] == UpdateResponse(s.respuestaExistente.value.id, data))
              && (!IsUpdate(s) ==> o.calls[0] == CreateResponse(data))
              && (submit.Saved? ==> o.next == s.(currentStep := Confirmation) && o.notice == Confirmed(IsUpdate(s)))
              && (submit.SaveFailed? ==> o.next == s && o.notice == ShowError(submit.error))
  {
    match SelectionKind(s.respuestaSeleccionada)
    case None => Outcome(s, [], ShowError(InvalidChoiceMessage))
    case Some(kind) =>
      if s.socio.None? then Outcome(s, [], TypeError)
      else
        var data := ResponseData(s.socio.value.idsocio, Literal(kind), s.adicionalesCount, now);
        var call := if IsUpdate(s) then UpdateResponse(s.respuestaExistente.value.id, data)
                    else CreateResponse(data);
        match submit
        case Saved => Outcome(s.(currentStep := Confirmation), [call], Confirmed(IsUpdate(s)))
        case SaveFailed(error) => Outcome(s, [call], ShowError(error))
  }

  /** `handlers.seleccionarRespuesta`: record the choice; attending or sending
      a representative asks about companions, anything else submits at once
      with no companions. */
  function SeleccionarRespuesta(s: WizardState, tipo: string, submit: SubmitOutcome, now: string): (o: Outcome)
    ensures tipo == "asistire" || tipo == "representante" ==>
              o == Outcome(s.(respuestaSeleccionada := Some(tipo), currentStep := Accompanied), [], Quiet)
    ensures tipo != "asistire" && tipo != "representante" ==>
              o == FinalizarRespuesta(s.(respuestaSeleccionada := Some(tipo), adicionalesCount := 0), submit, now)
  {
    var s1 := s.(respuestaSeleccionada := Some(tipo));
    if tipo == "asistire" || tipo == "representante" then
      Outcome(s1.(currentStep := Accompanied), [], Quiet)
    else
      FinalizarRespuesta(s1.(adicionalesCount := 0), submit, now)
  }

  /** `handlers.seleccionarAcompanantes`: "yes" asks for the count, "no"
      submits with none. */
  function SeleccionarAcompanantes(s: WizardState, conAcompanantes: bool, submit: SubmitOutcome, now: string): (o: Outcome)
    ensures conAcompanantes ==> o == Outcome(s.(currentStep := Additional), [], Quiet)
    ensures !conAcompanantes ==> o == FinalizarRespuesta(s.(adicionalesCount := 0), submit, now)
  {
    if conAcompanantes then Outcome(s.(currentStep := Additional), [], Quiet)
    else FinalizarRespuesta(s.(adicionalesCount := 0), submit, now)
  }

  /** `handlers.procesarAdicionales`: `parseInt(text) || 0`, refused outside
      [0, 10]; otherwise stored and submitted. */
  function ProcesarAdicionales(s: WizardState, parsed: Option<int>, submit: SubmitOutcome, now: string): (o: Outcome)
    ensures var n := parsed.GetOr(0);
            (n < 0 || n > MaxAdicionales) ==> o == Outcome(s, [], ShowError(InvalidCountMessage))
    ensures var n := parsed.GetOr(0);
            0 <= n <= MaxAdicionales ==> o == FinalizarRespuesta(s.(adicionalesCount := n), submit, now)
  {
    var adicionales := parsed.GetOr(0);
    if adicionales < 0 || adicionales > MaxAdicionales then
      Outcome(s, [], ShowError(InvalidCountMessage))
    else
      FinalizarRespuesta(s.(adicionalesCount := adicionales), submit, now)
  }

  /** `handlers.nuevaConsulta`: back to the initial state. */
  function NuevaConsulta(s: WizardState): (o: Outcome)
    ensures o.next.currentStep == Search && o.next.socio.None? && o.next.respuestaSeleccionada.None?
    ensures o.next.adicionalesCount == 0 && o.next.respuestaExistente.None? && !o.next.editandoRespuesta
    ensures o.calls == [] && o.notice == Quiet
  {
    Outcome(Initial, [], Quiet)
  }

  // ---------------------------------------------------------------------
  // Events and the transition function

  /** The visitor's actions, each carrying the backend answers it will meet.
      `now` is the confirmation timestamp, an opaque string. */
  datatype Event =
    | SubmitSearch(input: string, lookup: LookupOutcome, probe: ProbeOutcome)
    | ChangeResponse
    | SelectResponse(tipo: string, submit: SubmitOutcome, now: string)
    | SelectCompanions(conAcompanantes: bool, submit: SubmitOutcome, now: string)
    | SubmitAdditional(parsed: Option<int>, submit: SubmitOutcome, now: string)
    | NewQuery

  function Handle(s: WizardState, e: Event): Outcome {
    match e
    case SubmitSearch(input, lookup, probe) => BuscarSocio(s, input, lookup, probe)
    case ChangeResponse => CambiarRespuesta(s)
    case SelectResponse(tipo, submit, now) => SeleccionarRespuesta(s, tipo, submit, now)
    case SelectCompanions(con, submit, now) => SeleccionarAcompanantes(s, con, submit, now)
    case SubmitAdditional(parsed, submit, now) => ProcesarAdicionales(s, parsed, submit, now)
    case NewQuery => NuevaConsulta(s)
  }

  /** Submission is the only way into the confirmation step: any event that
      moves there issued exactly one create or update, which succeeded. */
  lemma ConfirmationOnlyAfterSavedSubmission(s: WizardState, e: Event)
    requires s.currentStep != Confirmation
    requires Handle(s, e).next.currentStep == Confirmation
    ensures |Handle(s, e).calls| == 1 && Handle(s, e).calls[0].IsSubmission()
    ensures Handle(s, e).notice.Confirmed?
    ensures e.SelectResponse? || e.SelectCompanions? || e.SubmitAdditional?
    ensures e.SelectResponse? ==> e.submit.Saved?
    ensures e.SelectCompanions? ==> e.submit.Saved?
    ensures e.SubmitAdditional? ==> e.submit.Saved?
  {
  }

  /** A failed submission leaves the visitor where they were, with the
      backend's message. */
  lemma FailedSubmissionKeepsStep(s: WizardState, e: Event)
    requires e.SelectResponse? || e.SelectCompanions? || e.SubmitAdditional?
    requires e.submit.SaveFailed?
    ensures Handle(s, e).next.currentStep != Confirmation || s.currentStep == Confirmation
  {
  }
}

=== FILE: Records.dfy ===
/** The two backend collections both front ends read: members ("matriz") and
    RSVP responses ("inauguracion"), and the three response literals the
    backend stores. */
module Records {
  import opened Base

  /** A member record; owned by the backend, never changed by the clients. */
  datatype Member = Member(idsocio: int, nombre: string, cedula: string, fundador: string)

  /** An RSVP row. Fields the backend may leave null are optional. */
  datatype Response = Response(
    id: int,
    idsocio: int,
    respuesta: Option<string>,
    adicionales: Option<int>,
    fechaconfirmacion: Option<string>,
    dateCreated: Option<string>)

  /** The closed set of answers a member can give. */
  datatype Kind = Attend | Decline | Delegate

  /** The backend literal of each answer (the `app.respuestas` block of the
      configuration, repeated verbatim by the wizard's submission mapping). */
  function Literal(k: Kind): (lit: string)
    ensures lit != ""
  {
    match k
    case Attend => "ASISTIRÁ"
    case Decline => "NO ASISTIRÁ"
    case Delegate => "ENVIARÁ UN REPRESENTANTE"
  }

  /** The inverse of `Literal`: the answer a stored literal denotes, if any. */
  function KindOf(lit: string): (k: Option<Kind>)
    ensures k.Some? ==> Literal(k.value) == lit
  {
    if lit == "ASISTIRÁ" then Some(Attend)
    else if lit == "NO ASISTIRÁ" then Some(Decline)
    else if lit == "ENVIARÁ UN REPRESENTANTE" then Some(Delegate)
    else None
  }

  lemma KindOfLiteral(k: Kind)
    ensures KindOf(Literal(k)) == Some(k)
  {
  }

  /** Distinct answers are stored as distinct literals. */
  lemma LiteralInjective(a: Kind, b: Kind)
    ensures Literal(a) == Literal(b) <==> a == b
  {
    KindOfLiteral(a);
    KindOfLiteral(b);
  }
}

=== FILE: Runs.dfy ===
/** Runs of the RSVP wizard: which events the page offers in each step, the
    invariant every reachable state keeps, and the walk-throughs the wizard
    promises. */
module Runs {
  import opened Base
  import opened Records
  import opened Form

  /** The choice strings wired to the three answer buttons. */
  predicate IsButtonChoice(tipo: string) {
    tipo == "asistire" || tipo == "no_asistire" || tipo == "representante"
  }

  /** The events the visible step offers. In the invitation step this is an
      over-approximation: the answer buttons, and the "change my response"
      and "new query" buttons of the existing-response card, since which of
      the two panels is on screen depends on earlier visits. */
  predicate Enabled(s: WizardState, e: Event) {
    match s.currentStep
    case Search => e.SubmitSearch?
    case Invitation => (e.SelectResponse? && IsButtonChoice(e.tipo)) || e.ChangeResponse? || e.NewQuery?
    case Accompanied => e.SelectCompanions?
    case Additional => e.SubmitAdditional?
    case Confirmation => e.NewQuery?
  }

  /** What holds in every state the page can reach from the initial one. */
  predicate Inv(s: WizardState) {
    && (s.currentStep == Search ==> s == Initial)
    && (s.currentStep != Search ==> s.socio.Some?)
    && (s.respuestaSeleccionada.None? || IsButtonChoice(s.respuestaSeleccionada.value))
    && ((s.currentStep == Accompanied || s.currentStep == Additional) ==>
          s.respuestaSeleccionada == Some("asistire") || s.respuestaSeleccionada == Some("representante"))
    && (s.currentStep == Confirmation ==> s.respuestaSeleccionada.Some?)
    && 0 <= s.adicionalesCount <= MaxAdicionales
  }

  /** Every create or update the page can send carries one of the three
      backend literals and a count in [0, 10]; a refusal carries no companions. */
  predicate WellFormedSubmission(c: Call) {
    c.IsSubmission() ==>
      && KindOf(c.data.respuesta).Some?
      && 0 <= c.data.adicionales <= MaxAdicionales
      && (c.data.respuesta == Literal(Decline) ==> c.data.adicionales == 0)
  }

  lemma InitialSatisfiesInv()
    ensures Inv(Initial)
  {
  }

  /** What an offered event guarantees: the invariant is kept, no handler
      throws on a missing member, a refusal before any backend call is for
      a bad ID or a bad count, and every submission is well formed. */
  predicate StepOk(s: WizardState, e: Event) {
    var o := Handle(s, e);
    && Inv(o.next)
    && o.notice != TypeError
    && (o.notice.ShowError? && o.calls == [] ==>
          o.notice.message == InvalidIdMessage || o.notice.message == InvalidCountMessage)
    && forall i :: 0 <= i < |o.calls| ==> WellFormedSubmission(o.calls[i])
  }

  /** The offered events keep the invariant, never throw on a missing
      member, refuse before any backend call only for a bad ID or a bad
      count (never for an invalid choice), and only send well-formed
      submissions. */
  lemma EnabledStepPreservesInv(s: WizardState, e: Event)
    requires Inv(s)
    requires Enabled(s, e)
    ensures Inv(Handle(s, e).next)
    ensures Handle(s, e).notice != TypeError
    ensures Handle(s, e).notice.ShowError? && Handle(s, e).calls == [] ==>
              Handle(s, e).notice.message == InvalidIdMessage
              || Handle(s, e).notice.message == InvalidCountMessage
    ensures forall i :: 0 <= i < |Handle(s, e).calls| ==> WellFormedSubmission(Handle(s, e).calls[i])
  {
    match e
    case SubmitSearch(input, lookup, probe) => SearchStepOk(s, e);
    case ChangeResponse =>
    case SelectResponse(tipo, submit, now) => AnswerStepOk(s, e);
    case SelectCompanions(con, submit, now) => CompanionsStepOk(s, e);
    case SubmitAdditional(parsed, submit, now) => CountStepOk(s, e);
    case NewQuery =>
  }

  lemma SearchStepOk(s: WizardState, e: Event)
    requires Inv(s) && Enabled(s, e) && e.SubmitSearch?
    ensures StepOk(s, e)
  {
  }

  lemma AnswerStepOk(s: WizardState, e: Event)
    requires Inv(s) && Enabled(s, e) && e.SelectResponse?
    ensures StepOk(s, e)
  {
    if e.tipo == "no_asistire" {
      var s1 := s.(respuestaSeleccionada := Some(e.tipo), adicionalesCount := 0);
      assert SelectionKind(s1.respuestaSeleccionada) == Some(Decline);
    }
  }

  lemma CompanionsStepOk(s: WizardState, e: Event)
    requires Inv(s) && Enabled(s, e) && e.SelectCompanions?
    ensures StepOk(s, e)
  {
  }

  lemma CountStepOk(s: WizardState, e: Event)
    requires Inv(s) && Enabled(s, e) && e.SubmitAdditional?
    ensures StepOk(s, e)
  {
  }

  /** A confirmation notice means the wizard is now on the confirmation step. */
  lemma ConfirmedMeansConfirmationStep(s: WizardState, e: Event)
    requires Handle(s, e).notice.Confirmed?
    ensures Handle(s, e).next.currentStep == Confirmation
  {
  }

  // ---------------------------------------------------------------------
  // Runs

  /** The state after the first `k` events. */
  function StateAt(s: WizardState, es: seq<Event>, k: nat): WizardState
    requires k <= |es|
    decreases k
  {
    if k == 0 then s else StateAt(Handle(s, es[0]).next, es[1..], k - 1)
  }

  /** The outcome of the `k`-th event. */
  function OutcomeAt(s: WizardState, es: seq<Event>, k: nat): Outcome
    requires k < |es|
  {
    Handle(StateAt(s, es, k), es[k])
  }

  /** Every event of the run was offered when it happened. */
  predicate EnabledRun(s: WizardState, es: seq<Event>)
    decreases |es|
  {
    |es| == 0 || (Enabled(s, es[0]) && EnabledRun(Handle(s, es[0]).next, es[1..]))
  }

  /** The final state and the calls issued along the way. */
  function Run(s: WizardState, es: seq<Event>): WizardState
    decreases |es|
  {
    if |es| == 0 then s else Run(Handle(s, es[0]).next, es[1..])
  }

  function CallsOf(s: WizardState, es: seq<Event>): seq<Call>
    decreases |es|
  {
    if |es| == 0 then [] else Handle(s, es[0]).calls + CallsOf(Handle(s, es[0]).next, es[1..])
  }

  /** A run is its first event followed by the run of the rest. */
  lemma RunCons(s: WizardState, e: Event, es: seq<Event>)
    ensures EnabledRun(s, [e] + es) == (Enabled(s, e) && EnabledRun(Handle(s, e).next, es))
    ensures Run(s, [e] + es) == Run(Handle(s, e).next, es)
    ensures CallsOf(s, [e] + es) == Handle(s, e).calls + CallsOf(Handle(s, e).next, es)
  {
    assert ([e] + es)[0] == e;
    assert ([e] + es)[1..] == es;
  }

  /** Every state an offered run reaches satisfies the invariant, and every
      submission it sends is well formed. */
  lemma {:induction false} EnabledRunKeepsInv(s: WizardState, es: seq<Event>)
    requires Inv(s)
    requires EnabledRun(s, es)
    ensures Inv(Run(s, es))
    ensures forall i :: 0 <= i < |CallsOf(s, es)| ==> WellFormedSubmission(CallsOf(s, es)[i])
    decreases |es|
  {
    if |es| > 0 {
      var o := Handle(s, es[0]);
      EnabledStepPreservesInv(s, es[0]);
      EnabledRunKeepsInv(o.next, es[1..]);
      var rest := CallsOf(o.next, es[1..]);
      forall i | 0 <= i < |o.calls + rest| ensures WellFormedSubmission((o.calls + rest)[i]) {
        if i >= |o.calls| {
          assert (o.calls + rest)[i] == rest[i - |o.calls|];
        }
      }
    }
  }

  /** The same, for every intermediate state of an offered run. */
  lemma {:induction false} EnabledRunStatesKeepInv(s: WizardState, es: seq<Event>, k: nat)
    requires Inv(s)
    requires EnabledRun(s, es)
    requires k <= |es|
    ensures Inv(StateAt(s, es, k))
    decreases k
  {
    if k > 0 {
      EnabledStepPreservesInv(s, es[0]);
      EnabledRunStatesKeepInv(Handle(s, es[0]).next, es[1..], k - 1);
    }
  }

  /** The `j`-th event of the run sends a create or an update. */
  predicate SubmitsAt(s: WizardState, es: seq<Event>, j: nat)
    requires j < |es|
  {
    exists c :: c in OutcomeAt(s, es, j).calls && c.IsSubmission()
  }

  /** A "new query" happens strictly between events `i` and `j`. */
  predicate NewQueryBetween(es: seq<Event>, i: nat, j: nat)
    requires j <= |es|
  {
    exists k :: i < k < j && es[k] == NewQuery
  }

  /** Submitting twice needs an explicit reset: after a confirmed submission,
      no later event of an offered run submits again unless a "new query"
      came in between. */
  lemma ResubmitNeedsNewQuery(s: WizardState, es: seq<Event>, i: nat, j: nat)
    requires EnabledRun(s, es)
    requires i < j < |es|
    requires OutcomeAt(s, es, i).notice.Confirmed?
    requires exists c :: c in OutcomeAt(s, es, j).calls && c.IsSubmission()
    ensures exists k :: i < k < j && es[k] == NewQuery
  {
    assert SubmitsAt(s, es, j);
    NoResubmitWithoutReset(s, es, i, j);
    assert NewQueryBetween(es, i, j);
  }

  lemma {:induction false} NoResubmitWithoutReset(s: WizardState, es: seq<Event>, i: nat, j: nat)
    requires EnabledRun(s, es)
    requires i < j < |es|
    requires OutcomeAt(s, es, i).notice.Confirmed?
    requires SubmitsAt(s, es, j)
    ensures NewQueryBetween(es, i, j)
    decreases i
  {
    if i > 0 {
      OutcomeAtTail(s, es, i);
      OutcomeAtTail(s, es, j);
      NoResubmitWithoutReset(Handle(s, es[0]).next, es[1..], i - 1, j - 1);
      NewQueryShift(es, i, j);
    } else {
      ConfirmedThenNewQuery(s, es);
      assert 0 < 1 < j && es[1] == NewQuery;
    }
  }

  /** A "new query" between two events of the tail is one between the
      matching events of the whole run. */
  lemma NewQueryShift(es: seq<Event>, i: nat, j: nat)
    requires 0 < i < j <= |es|
    requires NewQueryBetween(es[1..], i - 1, j - 1)
    ensures NewQueryBetween(es, i, j)
  {
    var k :| i - 1 < k < j - 1 && es[1..][k] == NewQuery;
    assert es[k + 1] == NewQuery;
  }

  /** The outcome of a later event, seen from the state after the first. */
  lemma OutcomeAtTail(s: WizardState, es: seq<Event>, k: nat)
    requires 0 < k < |es|
    ensures OutcomeAt(s, es, k) == OutcomeAt(Handle(s, es[0]).next, es[1..], k - 1)
  {
    assert es[1..][k - 1] == es[k];
  }

  /** Right after a confirmation, "new query" is the only offered event. */
  lemma ConfirmedThenNewQuery(s: WizardState, es: seq<Event>)
    requires EnabledRun(s, es)
    requires 1 < |es|
    requires Handle(s, es[0]).notice.Confirmed?
    ensures es[1] == NewQuery
  {
    ConfirmedMeansConfirmationStep(s, es[0]);
    assert es[1..][0] == es[1];
    assert Enabled(Handle(s, es[0]).next, es[1]);
  }

  /** The page starts on the search step and can always be reset to it. */
  lemma NewQueryAlwaysResets(s: WizardState)
    ensures Handle(s, NewQuery).next == Initial
    ensures Inv(Handle(s, NewQuery).next)
  {
  }

  // ---------------------------------------------------------------------
  // Walk-throughs

  /** A member without an earlier response who attends with two companions
      creates one response "ASISTIRÁ" with two companions and ends on the
      confirmation step. */
  lemma AttendWithTwoCompanions(input: string, m: Member, s1: SubmitOutcome, s2: SubmitOutcome, now: string)
    requires ValidateCedula(input)
    ensures var es := [SubmitSearch(input, Found([m]), ProbeRows([])),
                       SelectResponse("asistire", s1, now),
                       SelectCompanions(true, s2, now),
                       SubmitAdditional(Some(2), Saved, now)];
            && EnabledRun(Initial, es)
            && Run(Initial, es).currentStep == Confirmation
            && CallsOf(Initial, es) ==
                 [FindMember(FormatCedula(input)), FindExisting(m.idsocio),
                  CreateResponse(ResponseData(m.idsocio, "ASISTIRÁ", 2, now))]
  {
    var e0 := SubmitSearch(input, Found([m]), ProbeRows([]));
    var e1 := SelectResponse("asistire", s1, now);
    var e2 := SelectCompanions(true, s2, now);
    var e3 := SubmitAdditional(Some(2), Saved, now);
    var a := Handle(Initial, e0);
    var b := Handle(a.next, e1);
    var c := Handle(b.next, e2);
    var d := Handle(c.next, e3);
    assert a.next.currentStep == Invitation && a.next.respuestaExistente == None;
    assert a.calls == [FindMember(FormatCedula(input)), FindExisting(m.idsocio)];
    assert b.next.currentStep == Accompanied && b.calls == [];
    assert c.next.currentStep == Additional && c.calls == [];
    assert d.next.currentStep == Confirmation;
    assert d.calls == [CreateResponse(ResponseData(m.idsocio, "ASISTIRÁ", 2, now))];
    RunCons(c.next, e3, []);
    RunCons(b.next, e2, [e3]);
    RunCons(a.next, e1, [e2, e3]);
    RunCons(Initial, e0, [e1, e2, e3]);
    assert [e2] + [e3] == [e2, e3];
    assert [e1] + [e2, e3] == [e1, e2, e3];
    assert [e0] + [e1, e2, e3] == [e0, e1, e2, e3];
  }

  /** A member with an earlier response who changes it to "decline" updates
      that same response to "NO ASISTIRÁ" with no companions. */
  lemma ChangeToDeclineUpdates(input: string, m: Member, r: Response, now: string)
    requires ValidateCedula(input)
    ensures var es := [SubmitSearch(input, Found([m]), ProbeRows([r])),
                       ChangeResponse,
                       SelectResponse("no_asistire", Saved, now)];
            && EnabledRun(Initial, es)
            && Run(Initial, es).currentStep == Confirmation
            && CallsOf(Initial, es) ==
                 [FindMember(FormatCedula(input)), FindExisting(m.idsocio),
                  UpdateResponse(r.id, ResponseData(m.idsocio, "NO ASISTIRÁ", 0, now))]
  {
    var e0 := SubmitSearch(input, Found([m]), ProbeRows([r]));
    var e1 := ChangeResponse;
    var e2 := SelectResponse("no_asistire", Saved, now);
    var a := Handle(Initial, e0);
    var b := Handle(a.next, e1);
    var c := Handle(b.next, e2);
    assert a.next.currentStep == Invitation && a.next.respuestaExistente == Some(r);
    assert a.calls == [FindMember(FormatCedula(input)), FindExisting(m.idsocio)];
    assert b.next.editandoRespuesta && b.calls == [];
    assert c.next.currentStep == Confirmation;
    assert c.calls == [UpdateResponse(r.id, ResponseData(m.idsocio, "NO ASISTIRÁ", 0, now))];
    RunCons(b.next, e2, []);
    RunCons(a.next, e1, [e2]);
    RunCons(Initial, e0, [e1, e2]);
    assert [e1] + [e2] == [e1, e2];
    assert [e0] + [e1, e2] == [e0, e1, e2];
  }
}
